=== FILE: README.md ===
# LootPang front end — a Dafny model of its decision logic

LootPang's web client lets a user chat with a quest agent over Socket.IO,
sign EIP-712 typed data the agent asks for through an injected wallet, and
check and withdraw quest rewards. The client is a thin React application;
this project models the logic inside its hooks and components as pure
state-transition functions over immutable records:

- **Chat hook** (`useChat`): the timeline of chat messages, the socket
  lifecycle handlers, inbound broadcasts, `sendMessage`, the welcome
  message, `connectWallet`, the start-up wallet probe, the detection of a
  signing request, `switchToBaseNetwork` and the signing workflow
  `handleSignMessage`. Socket emits and alerts are append-only logs in the
  session record; every wallet, provider and socket answer is a parameter.
- **`BigInt(x || 0)` normalisation**: JavaScript truthiness plus a positional
  numeral parser with a proved round trip, so that `amount`, `nonce`,
  `deadline` and `chainId` reach the wallet as exact integers, as EIP-712
  requires of `uint256` fields ("Definition of `encodeData`").
- **Quest list**: the map-by-id merge `handleQuestUpdate`, the check and
  withdraw handlers over abstract HTTP replies, the button rules and
  `loadQuests`.
- **Wallet store**: the two-field display store and its invariant.
- **Header**: `truncateAddress`, `handleConnect` and the button's action.
- **Chat input**: trim, send when non-empty, clear; the disabled rule.

Modules: `Wrappers` (Option/Result), `Numerals`, `JsValues`, `JsStrings`,
`ChatTypes`, `ChatSession`, `NetworkSwitch`, `Signing`, `ChatFlow` (all
events in any order), `QuestTypes`, `QuestList`, `WalletStore`, `Header`,
`ChatInput`.

The model follows what the code does, including where it departs from the
behaviour its design describes: there is no pending "thinking" entry and no
replace-in-place (every timeline change is an append); after adding the chain on error 4902 the
switch is not retried; the switch always targets 0x14a34 (84532) whatever
chain the payload asked for, and the chain is not read again after a
reported success; a user rejection and any other failure end in the same
"Signature failed" alert and hidden "Signature was rejected." message; a
closed socket after signing is a silent return, not a distinct error.

## Model

| member | source | states |
|---|---|---|
| Numerals.ParseShow | src/hooks/useChat.ts:66-71 | reading back the numeral of any natural number gives that number: parse after show is the identity |
| Numerals.ShowCanonical | src/hooks/useChat.ts:66-71 | numerals produced by show have no leading zero and are "0" exactly for zero |
| Numerals.LeadingZero | src/hooks/useChat.ts:68-70 | a leading zero does not change the value of a numeral, as `BigInt("007")` is 7 |
| JsValues.ToBigIntOr | src/hooks/useChat.ts:63-70 | `BigInt(v or d)` in JavaScript's sense: a falsy field gives `d`; the conversion fails exactly on a non-empty string that is not a decimal numeral; otherwise it is the field's exact value |
| JsValues.ToBigInt | src/hooks/useChat.ts:68-70 | the empty string converts to 0, digit strings to their decimal value, numbers and bigints to themselves, and any other string fails |
| JsValues.DecimalRoundTrip | src/hooks/useChat.ts:68-70 | every decimal numeral converts to exactly the number it denotes, with no precision loss |
| JsValues.OneEtherInWei | src/hooks/useChat.ts:68 | "1000000000000000000" converts to exactly 10^18 |
| JsStrings.Trim | src/components/ChatInput.tsx:12 | the result is the slice of the input between its leading and trailing white space, and neither of its ends is white space |
| JsStrings.TrimEmptyIff | src/components/ChatInput.tsx:12 | trimming leaves the empty string exactly when the input is all white space |
| JsStrings.TrimIdempotent | src/components/ChatInput.tsx:13 | trimming twice is trimming once |
| ChatSession.Mount | src/hooks/useChat.ts:10-15 | a freshly mounted hook: the given room id, an empty timeline, the socket down, no signer, no address, nothing emitted or alerted |
| ChatSession.ShowWelcome | src/hooks/useChat.ts:321-331 | an empty timeline gets exactly one entry, the agent's greeting, and nothing else changes; a non-empty one is left alone |
| ChatSession.OnConnect | src/hooks/useChat.ts:264-271 | on connect the socket is up and one join carrying the room id is emitted; nothing else changes |
| ChatSession.OnDisconnect | src/hooks/useChat.ts:274-277 | on disconnect (and on a connect error) only the connected flag changes, to false |
| ChatSession.OnServerError | src/hooks/useChat.ts:302-305 | a server error adds one alert with the server's message, or "Unknown error" when it has none; nothing else changes |
| ChatSession.OnBroadcast | src/hooks/useChat.ts:280-299 | a broadcast appends exactly one agent entry, text defaulting to "Message received.", id to a fresh one, action and typed data copied; earlier entries and all other state are untouched |
| ChatSession.SendMessage | src/hooks/useChat.ts:218-249 | socket down: nothing changes; socket up: exactly one message emit with room and address, and one user entry with the text appended iff displayInChat, earlier entries unchanged |
| ChatSession.AddressForm | src/hooks/useChat.ts:205 | for a 42-character address the chat shows its first six characters, "...", and its last four |
| ChatSession.ConnectWallet | src/hooks/useChat.ts:172-215 | no provider or a wallet failure: one alert and nothing else; success: signer and address stored and one entry appended, not the user's, sent by "System" under a fresh id, with the connection text |
| ChatSession.CheckExistingWallet | src/hooks/useChat.ts:334-353 | an authorised account is adopted silently; any other outcome changes nothing; never an alert, an emit or a timeline entry |
| ChatSession.SigningRequest | src/hooks/useChat.ts:119-127 | a signing attempt is scheduled iff the last entry is not the user's, awaits a signature and carries typed data, and then for that typed data |
| ChatSession.UserEntryNeverSigns | src/hooks/useChat.ts:119-127 | a user entry appended by sendMessage never triggers a signing attempt |
| ChatSession.BroadcastSignsIff | src/hooks/useChat.ts:119-127 | after a broadcast a signing attempt is scheduled iff the broadcast awaits a signature and carries typed data |
| ChatSession.ConnectedEntryNeverSigns | src/hooks/useChat.ts:202-209 | the wallet-connected system entry never triggers a signing attempt |
| NetworkSwitch.SwitchToBase | src/hooks/useChat.ts:130-169 | no provider: false with no request; switch ok: true; error 4902: switch then add, answer is the add's result; other error: false; the switch is requested at most once and first |
| NetworkSwitch.TargetIsBaseSepolia | src/hooks/useChat.ts:137 | the hex chain id 0x14a34 sent to the wallet is 84532 |
| NetworkSwitch.EveryRequestTargetsBase | src/hooks/useChat.ts:135-159 | every switch and add request names chain 84532 |
| Signing.RequiredChain | src/hooks/useChat.ts:37 | the required chain is 84532 when the domain's chainId is falsy, and otherwise exactly `BigInt` of that chainId, failing when it is a non-numeral string |
| Signing.Normalise | src/hooks/useChat.ts:56-71 | the signed data replaces chainId, amount, nonce and deadline by exact integers (falsy gives 0) and keeps every other entry and the types; it fails exactly when one of the four is not convertible |
| Signing.Fail | src/hooks/useChat.ts:111-115 | a thrown error adds the "Signature failed" alert and, only if the socket is up, emits "Signature was rejected." with no timeline entry |
| Signing.HandleSign | src/hooks/useChat.ts:23-116 | no signer: connect only, no chain request, no signature, no emit; same chain: no switch; refused switch: stop before signing; only normalised data is signed; no provider, an unreadable network or a non-numeral chainId: the catch block before any chain request; on the required chain or after a successful switch, an unconvertible field or a refused signature ends in the catch block with that error, and so does a failed signer re-acquisition after the switch; on the required chain, or after a successful switch and a fresh signer, with convertible data and a signature from the wallet: submitted when the socket is up and signed-offline when it is down; submitted: exactly one emit with the signature as text and the original payload; with a signer and the socket down nothing is ever emitted; an obtained signature never raises an alert, so the socket-down return is silent; the signer is replaced only by the fresh one after a successful switch and never cleared; timeline never touched with a signer |
| Signing.SwitchThenSubmit | src/hooks/useChat.ts:42-109 | a payload asking for 84532 while the wallet is elsewhere: one switch request first, then the signature is emitted exactly once |
| Signing.MissingChainIdDefaults | src/hooks/useChat.ts:37-63 | a missing chainId means 84532 for the chain check but 0 in the signed domain |
| Signing.StringZeroChainIsNotDefaulted | src/hooks/useChat.ts:37 | a chainId of "0" is truthy and asks for chain 0, not 84532 |
| Signing.DecimalFieldsAreExact | src/hooks/useChat.ts:66-71 | decimal numerals in amount, nonce and deadline are signed as exactly their numbers |
| Signing.OneEtherPayload | src/hooks/useChat.ts:66-71 | amount "1000000000000000000" and nonce "0" are signed as 10^18 and 0 |
| Signing.SwitchIgnoresRequestedChain | src/hooks/useChat.ts:42-48 | whenever a switch is needed the same requests go to the wallet, whatever chain the payload asked for |
| Signing.NoRecheckAfterSwitch | src/hooks/useChat.ts:42-54 | after a reported successful switch the attempt signs and submits without reading the chain again, even for a payload asking for another chain |
| Signing.RejectionKeepsSession | src/hooks/useChat.ts:42-115 | a refused signature ends in the catch block, with the "Signature failed" alert and the hidden rejection emitted when the socket is up, unless the attempt already stopped at a refused chain switch; the socket state, the address and the timeline are unchanged |
| ChatFlow.StepKeeps | src/hooks/useChat.ts:235-247 | every handler keeps the room id, only appends to the timeline, and keeps the number of user entries at most the number of messages emitted |
| ChatFlow.RunKeeps | src/hooks/useChat.ts:10-15 | over any sequence of events, no timeline entry is removed or modified, the room id is stable and the user-entry invariant holds |
| ChatFlow.FromMount | src/hooks/useChat.ts:15 | from a freshly mounted hook every reachable session has its original room id and satisfies the invariant |
| ChatFlow.BorrowScenario | src/hooks/useChat.ts:79-109 | send, agent signing request, detection and signature on the right chain end with the user message and the signature emitted and no further timeline change |
| QuestList.Apply | src/components/QuestList.tsx:301 | the patched quest's properties, read as a JavaScript object, are the quest's object merged with the update's own properties (right-biased map union, the meaning of `{ ...quest, ...updates }`) |
| QuestList.ApplyIsSpread | src/components/QuestList.tsx:301 | any quest whose properties equal that merged object is the patched quest: the spread determines the result uniquely |
| QuestList.UpdateQuests | src/components/QuestList.tsx:298-304 | same length and order; quests whose id matches are patched, all others are identical |
| QuestList.UpdateIdempotent | src/components/QuestList.tsx:298-304 | applying the same update twice equals applying it once |
| QuestList.UpdatesCommute | src/components/QuestList.tsx:298-304 | updates of two different quests that keep ids commute |
| QuestList.UpdateKeepsIds | src/components/QuestList.tsx:298-304 | an update that does not set the id keeps every quest's id in place |
| QuestList.HandleCheck | src/components/QuestList.tsx:27-55 | no wallet: no request, no update, error line; otherwise checking while in flight and not after; success with data: the server's two flags, 'success' iff completed else 'info'; failure: no update, the server's error or the fixed text |
| QuestList.HandleWithdraw | src/components/QuestList.tsx:57-84 | no wallet: no request, no update, error line; otherwise claiming while in flight and not after; success with data: only canWithdraw set false; failure: no update and an error line |
| QuestList.CheckPatch | src/components/QuestList.tsx:41-44 | the update object of a successful check has exactly two own properties, isCompleted and canWithdraw, holding the server's values |
| QuestList.CheckDisabled | src/components/QuestList.tsx:204 | the check button is disabled for a completed quest and while a check is in flight |
| QuestList.WithdrawShown | src/components/QuestList.tsx:228 | the withdraw button is rendered only when the quest's reward can be withdrawn |
| QuestList.WithdrawDisabled | src/components/QuestList.tsx:231 | the withdraw button is disabled while a claim is in flight |
| QuestList.CheckUpdatesOnlyThatQuest | src/components/QuestList.tsx:39-46 | after a successful check that quest has the server's flags, every other quest is unchanged, and its check button is disabled iff completed |
| QuestList.ClaimHidesWithdraw | src/components/QuestList.tsx:69-75 | after a successful claim that quest's withdraw button is gone, its completion flag unchanged, other quests unchanged |
| QuestList.InFlightDisablesButton | src/components/QuestList.tsx:204 | while a check or claim is in flight its button is disabled |
| QuestList.LoadQuests | src/components/QuestList.tsx:283-296 | loading with no error while the fetch runs; afterwards not loading; success replaces the list; failure sets the error text and keeps the previous list |
| WalletStore.InitialValid | src/store/walletStore.ts:11-12 | the initial state has no address, is disconnected and satisfies the invariant |
| WalletStore.Connect | src/store/walletStore.ts:13 | connect stores the given address, overwriting any previous one, and sets connected |
| WalletStore.Disconnect | src/store/walletStore.ts:14 | disconnect returns to no address, disconnected |
| WalletStore.DisconnectIdempotent | src/store/walletStore.ts:14 | disconnecting twice is disconnecting once |
| WalletStore.ConnectThenDisconnect | src/store/walletStore.ts:11-14 | connect followed by disconnect is exactly the initial state |
| WalletStore.ConnectOverwrites | src/store/walletStore.ts:13 | the last connect's address wins |
| WalletStore.RunKeepsValid | src/store/walletStore.ts:10-15 | any operation sequence with real addresses keeps connected iff an address is held |
| WalletStore.RunLastWins | src/store/walletStore.ts:13-14 | the state after a non-empty sequence depends only on its last operation |
| WalletStore.UndefinedAddressBreaksValid | src/store/walletStore.ts:13 | connecting with undefined yields connected with no address |
| Header.Truncate | src/components/Header.tsx:19 | the first min(6,n) characters of the address, then "...", then its last min(4,n); length min(6,n)+3+min(4,n) |
| Header.LongAddress | src/components/Header.tsx:19 | for ten or more characters: 13 characters whose head and tail come from disjoint ranges |
| Header.MatchesChatForm | src/components/Header.tsx:19 | for a 42-character address the header shows the same form as the chat's connection message |
| Header.HandleConnect | src/components/Header.tsx:6-17 | no provider: alert and store unchanged; request error: store unchanged; success: store connected with the first account; an empty account list: `connectWallet(undefined)`, a store that is connected with no address |
| Header.Click | src/components/Header.tsx:69 | the button disconnects when connected and otherwise runs handleConnect |
| Header.Label | src/components/Header.tsx:100 | connected with a non-empty address: exactly the truncated address, which for ten or more characters is 13 characters long and never "Connect Wallet"; not connected or no address: "Connect Wallet" |
| Header.ClickWhenConnected | src/components/Header.tsx:69 | a click while connected lands in the initial state whatever the wallet would answer |
| Header.ClickKeepsValid | src/components/Header.tsx:69 | clicks keep the store's invariant when the wallet returns at least one account |
| ChatInput.SubmitDisabled | src/components/ChatInput.tsx:60 | the send button is disabled exactly when the input is all white space |
| ChatInput.Submit | src/components/ChatInput.tsx:10-16 | non-blank input: the trimmed text is sent once and the box cleared; blank input: nothing sent, box unchanged; anything sent is non-empty with no outer white space |
| ChatInput.SendsIffEnabled | src/components/ChatInput.tsx:60 | something is sent iff the button is enabled iff the input is not all white space |
| ChatInput.ResendIsStable | src/components/ChatInput.tsx:13 | submitting the sent text again sends it unchanged |
| ChatInput.SubmitReachesChat | src/components/ChatInput.tsx:13 | with the socket up a submission appends one user entry holding the trimmed, non-empty text |

## Left out

- The Socket.IO transport, the `fetch` calls of src/api/quests.ts and src/lib/socketClient.ts: socket events and HTTP replies are parameters or events.
- The ethers and `window.ethereum` calls (`getNetwork`, `getSigner`, `getAddress`, `listAccounts`, `signTypedData`, `request`): each is an abstract success value or error message. One flag says whether `window.ethereum` exists for a whole signing attempt; when it is missing with a signer held, the attempt fails with a fixed constant in place of ethers' full error text.
- EIP-712 hashing and the signature cryptography, which happen inside ethers.
- Timers: the 500 ms delay before signing is abstracted as a signing event that may occur at any point with any typed data; the 5 s clearing of a quest's status line is not modelled.
- React scheduling, refs and stale closures: the signature message's `userId` is the session's current address rather than a value captured earlier; StrictMode double effects are not modelled.
- Console logging, inline styles, the expand toggle of a quest item, the drag-resize of src/pages/HomePage.tsx and the purely presentational components.
- Switching the active quest tab: it only re-runs `loadQuests`, which is modelled with the fetch outcome as a parameter.
- JsValues.ToBigInt: strings with surrounding white space, a sign, or a `0x`/`0o`/`0b` prefix are treated as conversion errors, whereas `BigInt` accepts them; non-integral numbers are not representable.
- JsStrings.Trim: only the ASCII white space, the no-break space, the byte-order mark and the two line separators are trimmed; other Unicode space separators are not.
- Signing.Normalise: the `uint256` range of amount, nonce and deadline is not checked, as the source does not check it either.
- QuestTypes: reward amounts are JavaScript numbers, modelled as integers.
- ChatSession.OnBroadcast: a `messageBroadcast` event always carries a payload; the source's try/catch around the handler, which swallows the error a missing payload throws and appends nothing, is not modelled.
- ChatSession.OnServerError: the `error` event always carries an error object (possibly without a message); the throw on a missing error object, before any alert, is not modelled.
- JsValues: a payload field is undefined, a string, an integral number or a bigint; booleans, null, objects and fractional numbers are not represented, so `BigInt(true)` is outside the model.
- ChatFlow.StepKeeps: the invariant counts user entries against emitted messages; it does not pair each user entry with the emit that carried its text.

=== FILE: chat_flow.dfy ===
/**
 * The chat hook as a whole: every event that can reach it, applied in any
 * order. Timer scheduling is abstracted away; a signing attempt is an
 * event that may carry any typed data, which covers every interleaving of
 * the 500 ms detection delay with other events.
 */
module ChatFlow {
  import opened Wrappers
  import opened ChatTypes
  import opened ChatSession
  import opened Signing

  datatype ChatEvent =
    | SocketConnected
    | SocketDisconnected
    | SocketConnectError
    | SocketError(message: Option<string>)
    | Inbound(broadcast: Broadcast, freshId: string)
    | Send(text: string, displayInChat: bool, freshId: string)
    | Welcome(freshId: string)
    | ConnectClicked(probe: WalletProbe, freshId: string)
    | ExistingWallet(existing: ExistingProbe)
    | SignAttempt(data: TypedData, env: SignEnv, freshId: string)

  function Step(s: Session, e: ChatEvent): Session {
    match e
    case SocketConnected => OnConnect(s)
    case SocketDisconnected => OnDisconnect(s)
    case SocketConnectError => OnDisconnect(s)
    case SocketError(message) => OnServerError(s, message)
    case Inbound(b, id) => OnBroadcast(s, b, id)
    case Send(text, display, id) => SendMessage(s, text, display, id)
    case Welcome(id) => ShowWelcome(s, id)
    case ConnectClicked(probe, id) => ConnectWallet(s, probe, id)
    case ExistingWallet(probe) => CheckExistingWallet(s, probe)
    case SignAttempt(d, env, id) => HandleSign(s, d, env, id).session
  }

  function Run(s: Session, events: seq<ChatEvent>): Session
    decreases |events|
  {
    if |events| == 0 then s else Run(Step(s, events[0]), events[1..])
  }

  /** Number of user-authored entries in a timeline. */
  function UserEntries(m: seq<ChatMessage>): nat {
    if |m| == 0 then 0
    else UserEntries(m[..|m| - 1]) + (if m[|m| - 1].isUser then 1 else 0)
  }

  /** Number of `message` events (as opposed to room joins) emitted. */
  function MessagesSent(o: seq<Emit>): nat {
    if |o| == 0 then 0
    else MessagesSent(o[..|o| - 1]) + (if o[|o| - 1].Message? then 1 else 0)
  }

  lemma UserEntriesAppend(m: seq<ChatMessage>, x: ChatMessage)
    ensures UserEntries(m + [x]) == UserEntries(m) + (if x.isUser then 1 else 0)
  {
    assert (m + [x])[..|m|] == m;
  }

  lemma MessagesSentAppend(o: seq<Emit>, x: Emit)
    ensures MessagesSent(o + [x]) == MessagesSent(o) + (if x.Message? then 1 else 0)
  {
    assert (o + [x])[..|o|] == o;
  }

  /** The session invariant: every user entry on screen went out on the socket as a message. */
  predicate Consistent(s: Session) {
    UserEntries(s.messages) <= MessagesSent(s.outbox)
  }

  /** What one handler must guarantee for the session invariants. */
  predicate Keeps(s: Session, r: Session) {
    && r.roomId == s.roomId
    && IsPrefix(s.messages, r.messages)
    && (Consistent(s) ==> Consistent(r))
  }

  /**
   * One event: the room id never changes, the timeline only grows at its
   * end, and the invariant is kept.
   */
  lemma {:induction false} StepKeeps(s: Session, e: ChatEvent)
    ensures Keeps(s, Step(s, e))
  {
    match e
    case Inbound(b, id) => BroadcastKeeps(s, b, id);
    case Send(text, display, id) => SendKeeps(s, text, display, id);
    case Welcome(id) => WelcomeKeeps(s, id);
    case ConnectClicked(probe, id) => ConnectKeeps(s, probe, id);
    case SignAttempt(d, env, id) => SignKeeps(s, d, env, id);
    case SocketConnected => MessagesSentAppend(s.outbox, Join(s.roomId));
    case _ =>
  }

  lemma BroadcastKeeps(s: Session, b: Broadcast, id: string)
    ensures Keeps(s, OnBroadcast(s, b, id))
  {
    var r := OnBroadcast(s, b, id);
    assert r.messages == s.messages + [r.messages[|s.messages|]];
    UserEntriesAppend(s.messages, r.messages[|s.messages|]);
  }

  lemma SendKeeps(s: Session, text: string, display: bool, id: string)
    ensures Keeps(s, SendMessage(s, text, display, id))
  {
    var r := SendMessage(s, text, display, id);
    if s.socketConnected {
      MessagesSentAppend(s.outbox, Message(text, s.roomId, s.walletAddress, None, None));
      if display {
        assert r.messages == s.messages + [r.messages[|s.messages|]];
        UserEntriesAppend(s.messages, r.messages[|s.messages|]);
      }
    }
  }

  lemma WelcomeKeeps(s: Session, id: string)
    ensures Keeps(s, ShowWelcome(s, id))
  {
    var r := ShowWelcome(s, id);
    if |s.messages| == 0 {
      assert r.messages == [] + [r.messages[0]];
      UserEntriesAppend([], r.messages[0]);
    }
  }

  lemma SignKeeps(s: Session, d: TypedData, env: SignEnv, id: string)
    ensures Keeps(s, HandleSign(s, d, env, id).session)
  {
    var run := HandleSign(s, d, env, id);
    if s.signer.None? {
      ConnectKeeps(s.(alerts := s.alerts + [NotConnectedAlert]), env.connect, id);
    } else if run.outcome.Submitted? {
      MessagesSentAppend(s.outbox, SignatureMessage(s, d, run.outcome.signature));
    } else if run.outcome.Failed? && s.socketConnected {
      MessagesSentAppend(s.outbox, Message(RejectedText, s.roomId, s.walletAddress, None, None));
    }
  }

  lemma ConnectKeeps(s: Session, probe: WalletProbe, id: string)
    ensures ConnectWallet(s, probe, id).roomId == s.roomId
    ensures ConnectWallet(s, probe, id).outbox == s.outbox
    ensures IsPrefix(s.messages, ConnectWallet(s, probe, id).messages)
    ensures UserEntries(ConnectWallet(s, probe, id).messages) == UserEntries(s.messages)
  {
    var r := ConnectWallet(s, probe, id);
    if probe.Probed? {
      assert r.messages == s.messages + [r.messages[|s.messages|]];
      UserEntriesAppend(s.messages, r.messages[|s.messages|]);
    }
  }

  /**
   * Any sequence of events: the room id is stable, no entry is ever removed
   * or modified, and every user entry was sent.
   */
  lemma {:induction false} RunKeeps(s: Session, events: seq<ChatEvent>)
    ensures Keeps(s, Run(s, events))
    decreases |events|
  {
    if |events| > 0 {
      var t := Step(s, events[0]);
      StepKeeps(s, events[0]);
      RunKeeps(t, events[1..]);
      var r := Run(t, events[1..]);
      assert r.messages[..|s.messages|] == r.messages[..|t.messages|][..|s.messages|];
    }
  }

  /** From a freshly mounted hook, whatever happens, the invariants hold. */
  lemma {:induction false} FromMount(roomId: string, events: seq<ChatEvent>)
    ensures Run(Mount(roomId), events).roomId == roomId
    ensures Consistent(Run(Mount(roomId), events))
  {
    RunKeeps(Mount(roomId), events);
  }

  /**
   * The borrow scenario: the user sends a request, the agent answers with a
   * signing request, and the wallet (already on the right chain) signs.
   * The detection fires on the agent's entry and the signature is emitted
   * without any further timeline change.
   */
  lemma {:induction false} BorrowScenario(s: Session, text: string, b: Broadcast, env: SignEnv, sig: string, id1: string, id2: string)
    requires s.socketConnected && s.signer.Some?
    requires b.action == Some(AwaitingSignature) && b.dataToSign.Some?
    requires env.switchEnv.hasProvider && env.network.Ok? && RequiredChain(b.dataToSign.value) == Ok(env.network.value)
    requires Normalise(b.dataToSign.value).Ok? && env.signature == Ok(sig)
    ensures var s1 := SendMessage(s, text, true, id1);
            var s2 := OnBroadcast(s1, b, id2);
            && SigningRequest(s2.messages) == b.dataToSign
            && var run := HandleSign(s2, b.dataToSign.value, env, id2);
            && run.outcome == Submitted(sig)
            && run.session.messages == s2.messages
            && run.session.outbox == s.outbox + [Message(text, s.roomId, s.walletAddress, None, None),
                                                 SignatureMessage(s2, b.dataToSign.value, sig)]
  {
    var s1 := SendMessage(s, text, true, id1);
    BroadcastSignsIff(s1, b, id2);
  }
}

=== FILE: chat_input.dfy ===
/** The chat input box (src/components/ChatInput.tsx): trim, send when non-empty, then clear. */
module ChatInput {
  import opened Wrappers
  import JsStrings
  import ChatSession

  datatype SubmitRun = SubmitRun(sent: Option<string>, input: string)

  /** The send button is disabled when the trimmed input is empty, that is, when it is all white space. */
  predicate SubmitDisabled(input: string): (r: bool)
    ensures r <==> JsStrings.AllSpace(input)
  {
    JsStrings.TrimEmptyIff(input);
    JsStrings.Trim(input) == ""
  }

  /**
   * `handleSubmit`: a non-blank input is passed once, trimmed, to
   * `onSendMessage` and the box is cleared; a blank one sends nothing and
   * stays as it was.
   */
  function Submit(input: string): (r: SubmitRun)
    ensures !SubmitDisabled(input) ==> r == SubmitRun(Some(JsStrings.Trim(input)), "")
    ensures SubmitDisabled(input) ==> r == SubmitRun(None, input)
    ensures r.sent.Some? ==> r.sent.value != "" && JsStrings.Trimmed(r.sent.value)
  {
    var t := JsStrings.Trim(input);
    if t != "" then SubmitRun(Some(t), "") else SubmitRun(None, input)
  }

  /** Something is sent exactly when the button is enabled, which is exactly when the input is not all white space. */
  lemma SendsIffEnabled(input: string)
    ensures Submit(input).sent.Some? <==> !SubmitDisabled(input)
    ensures SubmitDisabled(input) <==> JsStrings.AllSpace(input)
  {
    JsStrings.TrimEmptyIff(input);
  }

  /** Submitting the text that was sent sends it unchanged. */
  lemma ResendIsStable(input: string)
    requires Submit(input).sent.Some?
    ensures Submit(Submit(input).sent.value).sent == Submit(input).sent
  {
    JsStrings.TrimIdempotent(input);
  }

  /**
   * Wired to the chat hook (`onSendMessage` is `sendMessage` with its
   * default `displayInChat`): with the socket up, a non-blank submission
   * appends one user entry holding the trimmed text and emits it.
   */
  lemma SubmitReachesChat(s: ChatSession.Session, input: string, freshId: string)
    requires s.socketConnected && !SubmitDisabled(input)
    ensures var r := ChatSession.SendMessage(s, Submit(input).sent.value, true, freshId);
            && ChatSession.Extends(s.messages, r.messages, 1)
            && r.messages[|s.messages|].isUser
            && r.messages[|s.messages|].text == JsStrings.Trim(input)
            && r.messages[|s.messages|].text != ""
  {
  }
}

=== FILE: chat_session.dfy ===
/**
 * The state kept by the chat hook (src/hooks/useChat.ts) and every handler
 * that changes it except the signing workflow: the socket lifecycle events,
 * inbound broadcasts, `sendMessage`, the welcome message, `connectWallet`,
 * the start-up wallet probe and the detection of a signing request.
 *
 * Socket emits and alerts are recorded in append-only logs, so a handler's
 * effect on the outside world is part of the state it returns. Fresh
 * message ids (uuid v4) are parameters.
 */
module ChatSession {
  import opened Wrappers
  import opened ChatTypes
  import JsStrings
  import NetworkSwitch

  const AgentName: string := "LootPang Agent"
  const SystemName: string := "System"
  const UserName: string := "You"
  const WelcomeText: string :=
    "Hello! I am LootPang's quest agent. Please let me know if you need help with quest completion."
  const DefaultReplyText: string := "Message received."
  const UnknownError: string := "Unknown error"

  /** The wallet's signing capability, known here only by its address. */
  datatype Signer = Signer(address: string)

  datatype Session = Session(
    roomId: string,
    messages: seq<ChatMessage>,
    socketConnected: bool,
    signer: Option<Signer>,
    walletAddress: Option<string>,
    outbox: seq<Emit>,
    alerts: seq<string>)

  /** `a` is a prefix of `b`. */
  predicate IsPrefix<T(==)>(a: seq<T>, b: seq<T>) {
    |a| <= |b| && b[..|a|] == a
  }

  /** `b` is `a` with exactly `k` entries appended and nothing else changed. */
  predicate Extends<T(==)>(a: seq<T>, b: seq<T>, k: nat) {
    IsPrefix(a, b) && |b| == |a| + k
  }

  /** The hook's state when it mounts: a fresh room, empty timeline, nothing connected. */
  function Mount(roomId: string): Session {
    Session(roomId, [], false, None, None, [], [])
  }

  /** The welcome effect: an empty timeline gets the agent's greeting; a non-empty one is left alone. */
  function ShowWelcome(s: Session, freshId: string): (r: Session)
    ensures |s.messages| > 0 ==> r == s
    ensures |s.messages| == 0 ==>
              && |r.messages| == 1 && !r.messages[0].isUser && r.messages[0].senderName == AgentName
              && r.messages[0].text == WelcomeText && r.messages[0].action == None
              && r.(messages := s.messages) == s
  {
    if |s.messages| == 0 then
      s.(messages := [ChatMessage(freshId, AgentName, WelcomeText, false, None, None)])
    else s
  }

  /** The `connect` event: the socket is up and the client joins its room. */
  function OnConnect(s: Session): (r: Session)
    ensures r.socketConnected
    ensures r.outbox == s.outbox + [Join(s.roomId)]
    ensures r.(socketConnected := s.socketConnected, outbox := s.outbox) == s
  {
    s.(socketConnected := true, outbox := s.outbox + [Join(s.roomId)])
  }

  /** The `disconnect` and `connect_error` events: the socket is down, nothing else changes. */
  function OnDisconnect(s: Session): (r: Session)
    ensures !r.socketConnected
    ensures r.(socketConnected := s.socketConnected) == s
  {
    s.(socketConnected := false)
  }

  /** The `error` event: an alert with the server's message, or a fixed text when it has none. */
  function OnServerError(s: Session, message: Option<string>): (r: Session)
    ensures message.Some? && message.value != "" ==>
              r.alerts == s.alerts + ["Server error: " + message.value]
    ensures !(message.Some? && message.value != "") ==>
              r.alerts == s.alerts + ["Server error: " + UnknownError]
    ensures r.(alerts := s.alerts) == s
  {
    s.(alerts := s.alerts + ["Server error: " + JsStrings.OrElse(message, UnknownError)])
  }

  /**
   * The `messageBroadcast` event: exactly one agent entry is appended, with
   * the broadcast's id (or a fresh one), its text (or "Message received.")
   * and its action and typed data copied unchanged.
   */
  function OnBroadcast(s: Session, b: Broadcast, freshId: string): (r: Session)
    ensures Extends(s.messages, r.messages, 1)
    ensures var m := r.messages[|s.messages|];
            && !m.isUser && m.senderName == AgentName
            && m.id == JsStrings.OrElse(b.id, freshId)
            && m.text == JsStrings.OrElse(b.text, DefaultReplyText)
            && m.action == b.action && m.dataToSign == b.dataToSign
    ensures r.(messages := s.messages) == s
  {
    var m := ChatMessage(JsStrings.OrElse(b.id, freshId), AgentName, JsStrings.OrElse(b.text, DefaultReplyText),
                         false, b.action, b.dataToSign);
    s.(messages := s.messages + [m])
  }

  /**
   * `sendMessage(text, displayInChat)`. With the socket down nothing happens.
   * Otherwise one `message` is emitted carrying the room and the wallet
   * address, and, only when `displayInChat`, one user entry is appended.
   */
  function SendMessage(s: Session, text: string, displayInChat: bool, freshId: string): (r: Session)
    ensures !s.socketConnected ==> r == s
    ensures s.socketConnected ==>
              r.outbox == s.outbox + [Message(text, s.roomId, s.walletAddress, None, None)]
    ensures s.socketConnected ==> Extends(s.messages, r.messages, if displayInChat then 1 else 0)
    ensures s.socketConnected && displayInChat ==>
              var m := r.messages[|s.messages|];
              m.isUser && m.text == text && m.senderName == UserName && m.id == freshId
              && m.action == None && m.dataToSign == None
    ensures r.(messages := s.messages, outbox := s.outbox) == s
  {
    if !s.socketConnected then s
    else
      var sent := s.(outbox := s.outbox + [Message(text, s.roomId, s.walletAddress, None, None)]);
      if displayInChat then
        sent.(messages := s.messages + [ChatMessage(freshId, UserName, text, true, None, None)])
      else sent
  }

  /** What the wallet reports when `connectWallet` asks it for a signer, an address and the network. */
  datatype WalletProbe =
    | NoProvider
    | ProbeFailed
    | Probed(signer: Signer, chainId: int)

  /** The address as the wallet-connected message shows it: six characters, "...", then from index 38 on. */
  function AddressForm(address: string): (r: string)
    ensures |address| == 42 ==> r == address[..6] + "..." + address[38..]
  {
    JsStrings.Prefix(address, 6) + "..." + JsStrings.From(address, 38)
  }

  function ConnectedText(address: string, chainId: int): string {
    "\U{2705} Wallet connected successfully! Address: " + AddressForm(address) +
    (if chainId != NetworkSwitch.BaseSepoliaChainId then "\n\U{26A0}\U{FE0F} Please switch to Base Sepolia network."
     else "\n\U{2705} Connected to Base Sepolia network")
  }

  /**
   * `connectWallet`. Without a provider, or when the wallet fails, the user
   * gets an alert and nothing else changes; on success the signer and
   * address are stored and one system entry is appended.
   */
  function ConnectWallet(s: Session, probe: WalletProbe, freshId: string): (r: Session)
    ensures probe.NoProvider? ==> r == s.(alerts := s.alerts + ["MetaMask is not installed."])
    ensures probe.ProbeFailed? ==> r == s.(alerts := s.alerts + ["Failed to connect wallet."])
    ensures probe.Probed? ==>
              && r.signer == Some(probe.signer)
              && r.walletAddress == Some(probe.signer.address)
              && Extends(s.messages, r.messages, 1)
              && !r.messages[|s.messages|].isUser
              && r.messages[|s.messages|].senderName == SystemName
              && r.messages[|s.messages|].id == freshId
              && r.messages[|s.messages|].action == None
              && r.messages[|s.messages|].dataToSign == None
              && r.messages[|s.messages|].text == ConnectedText(probe.signer.address, probe.chainId)
              && r.(signer := s.signer, walletAddress := s.walletAddress, messages := s.messages) == s
  {
    match probe
    case NoProvider => s.(alerts := s.alerts + ["MetaMask is not installed."])
    case ProbeFailed => s.(alerts := s.alerts + ["Failed to connect wallet."])
    case Probed(signer, chainId) =>
      var m := ChatMessage(freshId, SystemName, ConnectedText(signer.address, chainId), false, None, None);
      s.(signer := Some(signer), walletAddress := Some(signer.address), messages := s.messages + [m])
  }

  /** What the provider reports at start-up about already-authorised accounts. */
  datatype ExistingProbe =
    | NoWallet
    | LookupFailed
    | NoAccounts
    | Authorized(signer: Signer)

  /**
   * The start-up wallet check: an already-authorised account is adopted
   * silently; every other outcome changes nothing, and no outcome alerts,
   * emits or touches the timeline.
   */
  function CheckExistingWallet(s: Session, probe: ExistingProbe): (r: Session)
    ensures probe.Authorized? ==>
              r.signer == Some(probe.signer) && r.walletAddress == Some(probe.signer.address)
    ensures !probe.Authorized? ==> r == s
    ensures r.(signer := s.signer, walletAddress := s.walletAddress) == s
  {
    if probe.Authorized? then
      s.(signer := Some(probe.signer), walletAddress := Some(probe.signer.address))
    else s
  }

  /**
   * The detection effect run on every timeline change: the typed data of
   * the last entry when it is an agent entry awaiting a signature.
   */
  function SigningRequest(messages: seq<ChatMessage>): (r: Option<TypedData>)
    ensures r.Some? <==>
              && |messages| > 0
              && !messages[|messages| - 1].isUser
              && messages[|messages| - 1].action == Some(AwaitingSignature)
              && messages[|messages| - 1].dataToSign.Some?
    ensures r.Some? ==> r == messages[|messages| - 1].dataToSign
  {
    if |messages| == 0 then None
    else
      var last := messages[|messages| - 1];
      if !last.isUser && last.action == Some(AwaitingSignature) then last.dataToSign else None
  }

  /** A user entry appended by `sendMessage` never starts a signing attempt. */
  lemma UserEntryNeverSigns(s: Session, text: string, freshId: string)
    requires s.socketConnected
    ensures SigningRequest(SendMessage(s, text, true, freshId).messages) == None
  {
    var r := SendMessage(s, text, true, freshId);
    assert r.messages[|r.messages| - 1].isUser;
  }

  /** A broadcast starts a signing attempt exactly when it awaits a signature and carries typed data. */
  lemma BroadcastSignsIff(s: Session, b: Broadcast, freshId: string)
    ensures SigningRequest(OnBroadcast(s, b, freshId).messages).Some? <==>
              b.action == Some(AwaitingSignature) && b.dataToSign.Some?
    ensures b.action == Some(AwaitingSignature) ==>
              SigningRequest(OnBroadcast(s, b, freshId).messages) == b.dataToSign
  {
    var r := OnBroadcast(s, b, freshId);
    assert r.messages[|r.messages| - 1] == r.messages[|s.messages|];
  }

  /** The wallet-connected system entry never starts a signing attempt. */
  lemma ConnectedEntryNeverSigns(s: Session, probe: WalletProbe, freshId: string)
    requires probe.Probed?
    ensures SigningRequest(ConnectWallet(s, probe, freshId).messages) == None
  {
    var r := ConnectWallet(s, probe, freshId);
    assert r.messages[|r.messages| - 1] == r.messages[|s.messages|];
  }
}

=== FILE: chat_types.dfy ===
/** The shapes exchanged between the chat timeline, the socket and the wallet (src/types/chat.ts). */
module ChatTypes {
  import opened Wrappers
  import opened JsValues

  /** The one action a broadcast may carry that asks for a signature. */
  const AwaitingSignature: string := "AWAITING_SIGNATURE"

  /** One `(name, type)` entry of an EIP-712 struct type. */
  datatype TypedField = TypedField(name: string, kind: string)

  /** EIP-712 typed data as the agent sends it: domain, struct types and message value. */
  datatype TypedData = TypedData(
    domain: map<string, JsValue>,
    types: map<string, seq<TypedField>>,
    value: map<string, JsValue>)

  /** One entry of the chat timeline. */
  datatype ChatMessage = ChatMessage(
    id: string,
    senderName: string,
    text: string,
    isUser: bool,
    action: Option<string>,
    dataToSign: Option<TypedData>)

  /** The copy of the signed payload sent next to a signature, as received (not normalised). */
  datatype SignatureData = SignatureData(
    domain: map<string, JsValue>,
    types: map<string, seq<TypedField>>,
    value: map<string, JsValue>,
    amount: JsValue,
    nonce: JsValue,
    deadline: JsValue)

  /** An event the client emits on the socket. */
  datatype Emit =
    | Join(room: string)
    | Message(text: string, roomId: string, userId: Option<string>,
              signature: Option<string>, signatureData: Option<SignatureData>)

  /** The payload of an inbound `messageBroadcast` event. */
  datatype Broadcast = Broadcast(
    id: Option<string>,
    text: Option<string>,
    action: Option<string>,
    dataToSign: Option<TypedData>)
}

=== FILE: header.dfy ===
/** The header (src/components/Header.tsx): the connect button and the shortened address it shows. */
module Header {
  import opened Wrappers
  import JsStrings
  import ChatSession
  import opened WalletStore

  const Ellipsis: string := "..."
  const InstallAlert: string := "Please install MetaMask!"
  const ConnectLabel: string := "Connect Wallet"

  /** `truncateAddress`: the first six characters, "...", the last four. */
  function Truncate(address: string): (r: string)
    ensures |r| == JsStrings.Min(6, |address|) + 3 + JsStrings.Min(4, |address|)
    ensures r[..JsStrings.Min(6, |address|)] == address[..JsStrings.Min(6, |address|)]
    ensures r[|r| - JsStrings.Min(4, |address|)..] == address[|address| - JsStrings.Min(4, |address|)..]
    ensures r[JsStrings.Min(6, |address|)..JsStrings.Min(6, |address|) + 3] == Ellipsis
  {
    var head := JsStrings.Prefix(address, 6);
    var tail := JsStrings.LastChars(address, 4);
    var r := head + Ellipsis + tail;
    assert r[..|head|] == head;
    assert r[|r| - |tail|..] == tail;
    assert r[|head|..|head| + 3] == Ellipsis;
    r
  }

  /** For an address of ten or more characters: 13 characters, built from disjoint parts of it. */
  lemma LongAddress(address: string)
    requires |address| >= 10
    ensures |Truncate(address)| == 13
    ensures Truncate(address) == address[..6] + "..." + address[|address| - 4..]
    ensures 6 <= |address| - 4
  {
    var r := Truncate(address);
    assert r == r[..6] + r[6..9] + r[9..];
    assert r[6..9] == Ellipsis;
  }

  /** For a 42-character (0x-prefixed Ethereum) address, the header and the chat show the same form. */
  lemma MatchesChatForm(address: string)
    requires |address| == 42
    ensures Truncate(address) == ChatSession.AddressForm(address)
  {
    LongAddress(address);
    assert address[38..] == address[|address| - 4..];
  }

  /** What `eth_requestAccounts` does: no provider, a thrown error, or the account list. */
  datatype AccountsReply = NoProvider | RequestFailed | Accounts(list: seq<string>)

  datatype ConnectRun = ConnectRun(store: WalletState, alert: Option<string>)

  /**
   * `handleConnect`. No provider: an alert, the store untouched. A failed
   * request: the store untouched. Otherwise the store is connected with the
   * first account, or with `undefined` when the list is empty.
   */
  function HandleConnect(st: WalletState, reply: AccountsReply): (r: ConnectRun)
    ensures reply.NoProvider? ==> r == ConnectRun(st, Some(InstallAlert))
    ensures reply.RequestFailed? ==> r == ConnectRun(st, None)
    ensures reply.Accounts? && |reply.list| > 0 ==>
              r.alert == None && r.store.address == Some(reply.list[0]) && r.store.isConnected && Valid(r.store)
    ensures reply.Accounts? && |reply.list| == 0 ==>
              r == ConnectRun(Connect(st, None), None) && r.store.isConnected && !Valid(r.store)
  {
    match reply
    case NoProvider => ConnectRun(st, Some(InstallAlert))
    case RequestFailed => ConnectRun(st, None)
    case Accounts(list) => ConnectRun(Connect(st, if |list| > 0 then Some(list[0]) else None), None)
  }

  /** The button: disconnect when connected, otherwise try to connect. */
  function Click(st: WalletState, reply: AccountsReply): (r: ConnectRun)
    ensures st.isConnected ==> r == ConnectRun(Initial, None)
    ensures !st.isConnected ==> r == HandleConnect(st, reply)
  {
    if st.isConnected then ConnectRun(Disconnect(st), None) else HandleConnect(st, reply)
  }

  /** The button's label: the shortened address when connected with an address, else "Connect Wallet". */
  function Label(st: WalletState): (r: string)
    ensures st.isConnected && st.address.Some? && st.address.value != "" ==> r == Truncate(st.address.value)
    ensures st.isConnected && st.address.Some? && |st.address.value| >= 10 ==>
              |r| == 13 && r[..6] == st.address.value[..6] && r != ConnectLabel
    ensures !st.isConnected || st.address.None? || st.address.value == "" ==> r == ConnectLabel
  {
    if st.isConnected && st.address.Some? && st.address.value != "" then
      Truncate(st.address.value)
    else ConnectLabel
  }

  /** Clicking a connected button always lands in the initial state, whatever the wallet would say. */
  lemma ClickWhenConnected(st: WalletState, r1: AccountsReply, r2: AccountsReply)
    requires st.isConnected
    ensures Click(st, r1) == Click(st, r2) && Click(st, r1).store == Initial
  {
  }

  /** Clicks keep the store's invariant as long as the wallet returns at least one account. */
  lemma ClickKeepsValid(st: WalletState, reply: AccountsReply)
    requires Valid(st)
    requires reply.Accounts? ==> |reply.list| > 0
    ensures Valid(Click(st, reply).store)
  {
  }
}

=== FILE: js_strings.dfy ===
/**
 * JavaScript string operations used by the header, the chat input and the
 * wallet-connected message: `slice`, `substring` and `trim`.
 */
module JsStrings {
  import opened Wrappers

  function Min(a: int, b: int): int {
    if a <= b then a else b
  }

  /** `x || fallback` for an optional string: `undefined` and `""` are falsy. */
  function OrElse(x: Option<string>, fallback: string): (r: string)
    ensures x.Some? && x.value != "" ==> r == x.value
    ensures !(x.Some? && x.value != "") ==> r == fallback
  {
    if x.Some? && x.value != "" then x.value else fallback
  }

  /** `s.slice(0, n)` and `s.substring(0, n)` for `n >= 0`: at most the first `n` characters. */
  function Prefix(s: string, n: nat): (r: string)
    ensures |r| == Min(n, |s|)
    ensures r == s[..|r|]
  {
    s[..Min(n, |s|)]
  }

  /** `s.slice(-n)` for `n > 0`: at most the last `n` characters. */
  function LastChars(s: string, n: nat): (r: string)
    requires n > 0
    ensures |r| == Min(n, |s|)
    ensures r == s[|s| - |r|..]
  {
    s[|s| - Min(n, |s|)..]
  }

  /** `s.substring(k)`: everything from index `k`, empty when `k` is past the end. */
  function From(s: string, k: nat): (r: string)
    ensures k <= |s| ==> r == s[k..]
    ensures k >= |s| ==> r == ""
  {
    s[Min(k, |s|)..]
  }

  /**
   * The white space `String.prototype.trim` removes: the ASCII controls tab,
   * line feed, vertical tab, form feed, carriage return, the space, the
   * no-break space, the byte-order mark and the two Unicode line separators.
   */
  predicate IsSpace(c: char) {
    c == ' ' || c == '\t' || c == '\n' || c == '\r' || c == '\U{000B}' || c == '\U{000C}' ||
    c == '\U{00A0}' || c == '\U{FEFF}' || c == '\U{2028}' || c == '\U{2029}'
  }

  predicate AllSpace(s: string) {
    forall i :: 0 <= i < |s| ==> IsSpace(s[i])
  }

  /** Neither end of `s` is white space. */
  predicate Trimmed(s: string) {
    |s| == 0 || (!IsSpace(s[0]) && !IsSpace(s[|s| - 1]))
  }

  /** `s.trimStart()`: the suffix left after dropping leading white space. */
  function TrimStart(s: string): (r: string)
    ensures |r| <= |s| && r == s[|s| - |r|..]
    ensures AllSpace(s[..|s| - |r|])
    ensures |r| == 0 || !IsSpace(r[0])
  {
    if |s| > 0 && IsSpace(s[0]) then
      var r := TrimStart(s[1..]);
      assert s[..|s| - |r|] == [s[0]] + s[1..][..|s| - 1 - |r|];
      r
    else s
  }

  /** `s.trimEnd()`: the prefix left after dropping trailing white space. */
  function TrimEnd(s: string): (r: string)
    ensures |r| <= |s| && r == s[..|r|]
    ensures AllSpace(s[|r|..])
    ensures |r| == 0 || !IsSpace(r[|r| - 1])
  {
    if |s| > 0 && IsSpace(s[|s| - 1]) then
      var r := TrimEnd(s[..|s| - 1]);
      assert s[|r|..] == s[..|s| - 1][|r|..] + [s[|s| - 1]];
      r
    else s
  }

  /** Number of leading white-space characters. */
  function LeadingSpace(s: string): (n: nat)
    ensures n <= |s|
  {
    |s| - |TrimStart(s)|
  }

  /** `s.trim()`: the middle of `s` between its leading and trailing white space. */
  function Trim(s: string): (r: string)
    ensures LeadingSpace(s) + |r| <= |s|
    ensures r == s[LeadingSpace(s)..LeadingSpace(s) + |r|]
    ensures AllSpace(s[..LeadingSpace(s)]) && AllSpace(s[LeadingSpace(s) + |r|..])
    ensures Trimmed(r)
  {
    var t := TrimStart(s);
    var n := LeadingSpace(s);
    var r := TrimEnd(t);
    assert t == s[n..];
    assert r == t[..|r|] == s[n..n + |r|];
    assert s[n + |r|..] == t[|r|..];
    assert |r| > 0 ==> r[0] == t[0];
    r
  }

  /** Trimming leaves nothing exactly when the string is all white space. */
  lemma TrimEmptyIff(s: string)
    ensures Trim(s) == "" <==> AllSpace(s)
  {
    var n := LeadingSpace(s);
    if Trim(s) == "" {
      // the trimmed-start suffix is empty, since its first character would survive trimEnd
      assert n == |s|;
      assert s[..n] == s;
    } else {
      var r := Trim(s);
      assert s[n] == r[0];
    }
  }

  /** Trimming a trimmed string changes nothing. */
  lemma TrimIdempotent(s: string)
    ensures Trim(Trim(s)) == Trim(s)
  {
    var r := Trim(s);
    assert TrimStart(r) == r;
    assert TrimEnd(r) == r;
  }
}

=== FILE: js_values.dfy ===
/**
 * The handful of JavaScript value semantics the front end relies on:
 * truthiness, the `x || fallback` idiom and `BigInt(...)` conversion of
 * the numeric fields of a typed-data payload.
 */
module JsValues {
  import opened Wrappers
  import Numerals

  /** A field of a JSON payload: absent, a string, an integral number or a bigint. */
  datatype JsValue = Undefined | Str(s: string) | Num(n: int) | Big(b: int)

  /** JavaScript truthiness: `undefined`, `""`, `0` and `0n` are falsy. */
  predicate Truthy(v: JsValue) {
    match v
    case Undefined => false
    case Str(s) => s != ""
    case Num(n) => n != 0
    case Big(b) => b != 0
  }

  /** `v || fallback` with a numeric fallback. */
  function OrNumber(v: JsValue, fallback: int): (r: JsValue)
    ensures Truthy(v) ==> r == v
    ensures !Truthy(v) ==> r == Num(fallback)
  {
    if Truthy(v) then v else Num(fallback)
  }

  /** A field of a record, `undefined` when the key is missing. */
  function Lookup(m: map<string, JsValue>, key: string): (r: JsValue)
    ensures key !in m ==> r == Undefined
    ensures key in m ==> r == m[key]
  {
    if key in m then m[key] else Undefined
  }

  /**
   * `BigInt(v)`. Strings are read as decimal numerals; the empty string is
   * zero; any other string throws a SyntaxError (whitespace, signs and `0x`
   * prefixes are not modelled).
   */
  function ToBigInt(v: JsValue): (r: Result<int>)
    ensures v.Str? && v.s == "" ==> r == Ok(0)
    ensures v.Str? && v.s != "" ==>
              (r.Ok? <==> Numerals.IsDigitString(v.s, 10)) &&
              (r.Ok? ==> r.value == Numerals.ValueOf(v.s, 10))
    ensures (v.Num? ==> r == Ok(v.n)) && (v.Big? ==> r == Ok(v.b))
    ensures v.Undefined? ==> r.Err?
  {
    match v
    case Undefined => Err("Cannot convert undefined to a BigInt")
    case Str(s) =>
      if s == "" then Ok(0)
      else (match Numerals.Parse(s, 10)
            case Some(n) => Ok(n)
            case None => Err("Cannot convert " + s + " to a BigInt"))
    case Num(n) => Ok(n)
    case Big(b) => Ok(b)
  }

  /**
   * `BigInt(v || fallback)`, the normalisation applied to chain ids and to
   * amount, nonce and deadline. It fails exactly on a non-numeral string.
   */
  function ToBigIntOr(v: JsValue, fallback: int): (r: Result<int>)
    ensures !Truthy(v) ==> r == Ok(fallback)
    ensures r.Err? <==> v.Str? && v.s != "" && !Numerals.IsDigitString(v.s, 10)
    ensures Truthy(v) && r.Ok? ==> ToBigInt(v) == r
  {
    ToBigInt(OrNumber(v, fallback))
  }

  /** A decimal numeral written by `Show` converts to exactly its number. */
  lemma DecimalRoundTrip(n: nat, fallback: int)
    ensures ToBigIntOr(Str(Numerals.Show(n, 10)), fallback) == Ok(n)
  {
    var s := Numerals.Show(n, 10);
    Numerals.ParseShow(n, 10);
    assert Truthy(Str(s));
    assert Numerals.Parse(s, 10) == Some(n);
    assert ToBigInt(Str(s)) == Ok(n);
  }

  /** One ether in wei, written as a string, is exactly 10^18 and not a rounded float. */
  lemma OneEtherInWei()
    ensures ToBigIntOr(Str("1000000000000000000"), 0) == Ok(Numerals.Pow(10, 18))
  {
    var s := "1" + Numerals.Zeros(18);
    Numerals.OneThenZeros(18, 10);
    assert s == "1000000000000000000";
    assert Numerals.Parse(s, 10) == Some(Numerals.Pow(10, 18));
  }
}

=== FILE: network_switch.dfy ===
/**
 * `switchToBaseNetwork` of the chat hook: ask the wallet to switch to Base
 * Sepolia and, when the wallet does not know that chain (error 4902),
 * ask it to add the chain instead. The wallet's replies are parameters;
 * the requests made are returned in order.
 */
module NetworkSwitch {
  import opened Wrappers
  import Numerals

  const BaseSepoliaChainId: nat := 84532
  /** The chain id as the wallet RPC takes it, a `0x`-prefixed hex quantity. */
  const BaseSepoliaHex: string := "0x14a34"
  /** The wallet's "unrecognized chain" error code. */
  const UnrecognizedChain: int := 4902

  /** The descriptor passed to `wallet_addEthereumChain`. */
  datatype ChainParams = ChainParams(
    chainId: string,
    chainName: string,
    currencyName: string,
    currencySymbol: string,
    currencyDecimals: nat,
    rpcUrls: seq<string>,
    blockExplorerUrls: seq<string>)

  const BaseSepolia: ChainParams := ChainParams(
    BaseSepoliaHex, "Base Sepolia", "ETH", "ETH", 18,
    ["https://sepolia.base.org"], ["https://sepolia-explorer.base.org"])

  /** A request sent to the wallet provider. */
  datatype WalletRequest =
    | SwitchChain(chainId: string)
    | AddChain(params: ChainParams)

  /** How `wallet_switchEthereumChain` ends: success, or an error with its `code` if it has one. */
  datatype SwitchReply = Switched | SwitchFailed(code: Option<int>)

  /** Everything the wallet decides during one call. */
  datatype SwitchEnv = SwitchEnv(hasProvider: bool, switchReply: SwitchReply, addSucceeded: bool)

  datatype SwitchRun = SwitchRun(ok: bool, requests: seq<WalletRequest>)

  /** Reads a `0x`-prefixed hex quantity. */
  function ChainIdOfHex(h: string): (r: Option<nat>)
    ensures r.Some? ==> |h| > 2 && h[..2] == "0x" && r == Numerals.Parse(h[2..], 16)
  {
    if |h| > 2 && h[..2] == "0x" then Numerals.Parse(h[2..], 16) else None
  }

  predicate IsUnrecognized(reply: SwitchReply) {
    reply.SwitchFailed? && reply.code == Some(UnrecognizedChain)
  }

  /**
   * The outcome table: no provider, false with no request; switch accepted,
   * true; unknown chain, one add request whose result is the answer, and no
   * second switch; any other switch error, false.
   */
  function SwitchToBase(env: SwitchEnv): (r: SwitchRun)
    ensures !env.hasProvider ==> !r.ok && r.requests == []
    ensures env.hasProvider ==> |r.requests| >= 1 && r.requests[0] == SwitchChain(BaseSepoliaHex)
    ensures env.hasProvider && env.switchReply.Switched? ==> r.ok && |r.requests| == 1
    ensures env.hasProvider && IsUnrecognized(env.switchReply) ==>
              r.ok == env.addSucceeded && r.requests == [SwitchChain(BaseSepoliaHex), AddChain(BaseSepolia)]
    ensures env.hasProvider && env.switchReply.SwitchFailed? && !IsUnrecognized(env.switchReply) ==>
              !r.ok && |r.requests| == 1
    ensures forall i :: 0 <= i < |r.requests| ==> (r.requests[i].SwitchChain? <==> i == 0)
  {
    if !env.hasProvider then SwitchRun(false, [])
    else match env.switchReply
      case Switched => SwitchRun(true, [SwitchChain(BaseSepoliaHex)])
      case SwitchFailed(code) =>
        if code == Some(UnrecognizedChain) then
          SwitchRun(env.addSucceeded, [SwitchChain(BaseSepoliaHex), AddChain(BaseSepolia)])
        else SwitchRun(false, [SwitchChain(BaseSepoliaHex)])
  }

  /** `0x14a34` is 84532: whatever chain was asked for, this is the chain the wallet is sent to. */
  lemma TargetIsBaseSepolia()
    ensures ChainIdOfHex(BaseSepoliaHex) == Some(BaseSepoliaChainId)
    ensures ChainIdOfHex(BaseSepolia.chainId) == Some(BaseSepoliaChainId)
  {
    assert BaseSepoliaHex[2..] == "14a34";
    assert BaseSepoliaHex[..2] == "0x";
    assert Numerals.IsDigitString("14a34", 16);
    // 0x1 = 1, 0x14 = 20, 0x14a = 330, 0x14a3 = 5283, 0x14a34 = 84532
    assert "14a34"[..4] == "14a3" && "14a3"[..3] == "14a" && "14a"[..2] == "14" && "14"[..1] == "1";
    assert Numerals.ValueOf("1", 16) == 1;
    assert Numerals.ValueOf("14", 16) == 20;
    assert Numerals.ValueOf("14a", 16) == 330;
    assert Numerals.ValueOf("14a3", 16) == 5283;
    assert Numerals.ValueOf("14a34", 16) == 84532;
  }

  /** Every chain the wallet is asked to switch to or add is 84532. */
  lemma EveryRequestTargetsBase(env: SwitchEnv)
    ensures forall q :: q in SwitchToBase(env).requests ==>
              ChainIdOfHex(if q.SwitchChain? then q.chainId else q.params.chainId) == Some(BaseSepoliaChainId)
  {
    TargetIsBaseSepolia();
  }
}

=== FILE: numerals.dfy ===
/**
 * Positional numerals in a base between 2 and 16, lower-case digits.
 * Decimal strings are what `BigInt(...)` turns into exact integers
 * (amounts, nonces, deadlines, chain ids); base 16 is the `0x…` form in
 * which the wallet is asked to switch chain.
 */
module Numerals {
  import opened Wrappers

  type Base = b: nat | 2 <= b <= 16 witness 10

  /** The value of one digit character, upper- or lower-case; None when it is no digit of base `b`. */
  function DigitValue(c: char, b: Base): (r: Option<nat>)
    ensures r.Some? ==> r.value < b
  {
    var d :=
      if '0' <= c <= '9' then (c as int) - ('0' as int)
      else if 'a' <= c <= 'f' then (c as int) - ('a' as int) + 10
      else if 'A' <= c <= 'F' then (c as int) - ('A' as int) + 10
      else 16;
    if 0 <= d < b then Some(d) else None
  }

  /** The canonical (lower-case) character of digit `d`. */
  function DigitChar(d: nat): char
    requires d < 16
  {
    if d < 10 then ('0' as int + d) as char else ('a' as int + d - 10) as char
  }

  lemma DigitRoundTrip(d: nat, b: Base)
    requires d < b
    ensures DigitValue(DigitChar(d), b) == Some(d)
  {
  }

  predicate IsDigitString(s: string, b: Base) {
    forall i :: 0 <= i < |s| ==> DigitValue(s[i], b).Some?
  }

  /** The number a digit string denotes, most significant digit first. */
  function ValueOf(s: string, b: Base): nat
    requires IsDigitString(s, b)
  {
    if |s| == 0 then 0
    else ValueOf(s[..|s| - 1], b) * b + DigitValue(s[|s| - 1], b).value
  }

  /** Reads a non-empty digit string; anything else is rejected. */
  function Parse(s: string, b: Base): (r: Option<nat>)
    ensures r.Some? <==> |s| > 0 && IsDigitString(s, b)
  {
    if |s| > 0 && IsDigitString(s, b) then Some(ValueOf(s, b)) else None
  }

  /** The numeral of `n` in base `b`, most significant digit first. */
  function Show(n: nat, b: Base): (r: string)
    ensures |r| > 0
    ensures IsDigitString(r, b)
    decreases n
  {
    DivBounds(n, b);
    DigitRoundTrip(n % b, b);
    var prefix := if n < b then "" else Show(n / b, b);
    var r := prefix + [DigitChar(n % b)];
    assert forall i :: 0 <= i < |prefix| ==> r[i] == prefix[i];
    r
  }

  /** Shown numerals are the shortest: no leading zero, except "0" itself. */
  lemma {:induction false} ShowCanonical(n: nat, b: Base)
    ensures |Show(n, b)| > 1 ==> Show(n, b)[0] != '0'
    ensures Show(n, b) == "0" <==> n == 0
    decreases n
  {
    var s := Show(n, b);
    DivBounds(n, b);
    if n >= b {
      var prefix := Show(n / b, b);
      assert s == prefix + [DigitChar(n % b)];
      ShowCanonical(n / b, b);
      assert s[0] == prefix[0];
      assert |s| >= 2;
    } else {
      assert s == [DigitChar(n)];
      DigitZero(n);
    }
  }

  lemma DigitZero(d: nat)
    requires d < 16
    ensures DigitChar(d) == '0' <==> d == 0
  {
  }

  /** The remainder is a digit and the quotient of a multi-digit number is smaller and positive. */
  lemma DivBounds(n: nat, b: Base)
    ensures 0 <= n % b < b
    ensures n >= b ==> 0 < n / b < n
  {
  }

  /** Euclidean division by the base puts the number back together. */
  lemma DivMod(n: nat, b: Base)
    ensures n == n / b * b + n % b
  {
  }

  /** Reading back a shown numeral gives the number again. */
  lemma {:induction false} ParseShow(n: nat, b: Base)
    ensures Parse(Show(n, b), b) == Some(n)
  {
    ShowValue(n, b);
  }

  lemma {:induction false} ShowValue(n: nat, b: Base)
    ensures ValueOf(Show(n, b), b) == n
    decreases n
  {
    DivBounds(n, b);
    var q, d := n / b, n % b;
    DigitRoundTrip(d, b);
    if n < b {
      SmallDiv(n, b);
      assert Show(n, b) == "" + [DigitChar(d)];
      AppendDigit("", DigitChar(d), b);
    } else {
      var prefix := Show(q, b);
      assert Show(n, b) == prefix + [DigitChar(d)];
      AppendDigit(prefix, DigitChar(d), b);
      ShowValue(q, b);
      DivMod(n, b);
    }
  }

  /** A one-digit number is its own remainder. */
  lemma SmallDiv(n: nat, b: Base)
    requires n < b
    ensures n % b == n
  {
  }

  /** Appending one digit shifts the value by one place. */
  lemma AppendDigit(s: string, c: char, b: Base)
    requires IsDigitString(s, b) && DigitValue(c, b).Some?
    ensures IsDigitString(s + [c], b)
    ensures ValueOf(s + [c], b) == ValueOf(s, b) * b + DigitValue(c, b).value
  {
    var t := s + [c];
    assert t[..|t| - 1] == s;
    assert t[|t| - 1] == c;
  }

  /** Leading zeros do not change the value, as for `BigInt("007")`. */
  lemma {:induction false} LeadingZero(s: string, b: Base)
    requires IsDigitString(s, b)
    ensures IsDigitString("0" + s, b)
    ensures ValueOf("0" + s, b) == ValueOf(s, b)
  {
    var t := "0" + s;
    assert forall i :: 1 <= i < |t| ==> t[i] == s[i - 1];
    if |s| > 0 {
      assert t[..|t| - 1] == "0" + s[..|s| - 1];
      LeadingZero(s[..|s| - 1], b);
    }
  }

  /** A one followed by `k` zeros denotes `b` to the power `k`. */
  lemma {:induction false} OneThenZeros(k: nat, b: Base)
    ensures IsDigitString("1" + Zeros(k), b)
    ensures ValueOf("1" + Zeros(k), b) == Pow(b, k)
  {
    var s := "1" + Zeros(k);
    if k > 0 {
      assert s[..|s| - 1] == "1" + Zeros(k - 1);
      OneThenZeros(k - 1, b);
    }
  }

  function Zeros(k: nat): (r: string)
    ensures |r| == k
    ensures forall i :: 0 <= i < k ==> r[i] == '0'
  {
    if k == 0 then "" else Zeros(k - 1) + "0"
  }

  function Pow(b: nat, k: nat): nat {
    if k == 0 then 1 else Pow(b, k - 1) * b
  }
}

=== FILE: quest_list.dfy ===
/**
 * The quest list component (src/components/QuestList.tsx): loading the
 * list, merging per-quest updates into it, and each quest item's check and
 * withdraw handlers with the button rules that depend on them. HTTP replies
 * are parameters; the five-second clearing of the status line is left out.
 */
module QuestList {
  import opened Wrappers
  import opened QuestTypes
  import JsStrings

  /** `{ ...quest, ...updates }`: present fields overwrite, absent ones are kept. */
  function Apply(q: Quest, p: QuestPatch): (r: Quest)
    ensures Fields(r) == Fields(q) + PatchFields(p)
  {
    var r := Quest(
      p.id.GetOr(q.id),
      p.projectName.GetOr(q.projectName),
      p.questName.GetOr(q.questName),
      p.description.GetOr(q.description),
      p.reward.GetOr(q.reward),
      p.isCompleted.GetOr(q.isCompleted),
      p.canWithdraw.GetOr(q.canWithdraw));
    assert forall k | k in QuestKeys ::
      Property(r, k) == if PatchProperty(p, k).Some? then PatchProperty(p, k).value else Property(q, k);
    r
  }

  /** The spread determines the result: `Apply` is the one quest whose properties are the merged object's. */
  lemma {:induction false} ApplyIsSpread(q: Quest, p: QuestPatch, x: Quest)
    requires Fields(x) == Fields(q) + PatchFields(p)
    ensures x == Apply(q, p)
  {
    FieldsInjective(x, Apply(q, p));
  }

  /**
   * `handleQuestUpdate`: the same list, in the same order, with every quest
   * whose id matches patched and every other quest left as it was.
   */
  function UpdateQuests(qs: seq<Quest>, questId: string, p: QuestPatch): (r: seq<Quest>)
    ensures |r| == |qs|
    ensures forall i :: 0 <= i < |qs| ==> r[i] == (if qs[i].id == questId then Apply(qs[i], p) else qs[i])
  {
    if |qs| == 0 then []
    else UpdateQuests(qs[..|qs| - 1], questId, p) +
         [if qs[|qs| - 1].id == questId then Apply(qs[|qs| - 1], p) else qs[|qs| - 1]]
  }

  /** Patching twice with the same update is the same as patching once. */
  lemma ApplyIdempotent(q: Quest, p: QuestPatch)
    ensures Apply(Apply(q, p), p) == Apply(q, p)
  {
  }

  /** Updating the list twice with the same update is the same as updating it once. */
  lemma UpdateIdempotent(qs: seq<Quest>, questId: string, p: QuestPatch)
    ensures UpdateQuests(UpdateQuests(qs, questId, p), questId, p) == UpdateQuests(qs, questId, p)
  {
    var once := UpdateQuests(qs, questId, p);
    var twice := UpdateQuests(once, questId, p);
    forall i | 0 <= i < |qs|
      ensures twice[i] == once[i]
    {
      ApplyIdempotent(qs[i], p);
    }
  }

  /** A patch that leaves the id alone keeps the list's ids, in order. */
  lemma UpdateKeepsIds(qs: seq<Quest>, questId: string, p: QuestPatch, i: int)
    requires p.id.None? && 0 <= i < |qs|
    ensures UpdateQuests(qs, questId, p)[i].id == qs[i].id
  {
  }

  /** Updates of two different quests that leave ids alone commute. */
  lemma UpdatesCommute(qs: seq<Quest>, a: string, pa: QuestPatch, b: string, pb: QuestPatch)
    requires a != b && pa.id.None? && pb.id.None?
    ensures UpdateQuests(UpdateQuests(qs, a, pa), b, pb) == UpdateQuests(UpdateQuests(qs, b, pb), a, pa)
  {
    var ab := UpdateQuests(UpdateQuests(qs, a, pa), b, pb);
    var ba := UpdateQuests(UpdateQuests(qs, b, pb), a, pa);
    assert forall i :: 0 <= i < |qs| ==> ab[i] == ba[i];
  }

  /** The colour of the status line. */
  datatype MessageType = Success | Error | Info

  /** A quest item's own state. */
  datatype ItemState = ItemState(
    isChecking: bool,
    isClaiming: bool,
    statusMessage: string,
    messageType: MessageType)

  /** A request's fate: a reply, or an exception thrown out of the call. */
  datatype Reply<T> = Returned(response: T) | Threw

  /**
   * One press of a button: the state while the request is in flight (None
   * when no request is made), the state after it, and the update passed to
   * `onQuestUpdate`, if any.
   */
  datatype ItemRun = ItemRun(inFlight: Option<ItemState>, after: ItemState, update: Option<QuestPatch>)

  const ConnectFirst: string := "Please connect your wallet first"
  const CheckFailed: string := "Failed to check quest achievement"
  const ClaimFailed: string := "Failed to claim reward"
  const NetworkError: string := "Network error occurred"

  /** `!walletAddress` is false: an address is present and non-empty. */
  predicate HasWallet(wallet: Option<string>) {
    wallet.Some? && wallet.value != ""
  }

  /** `showMessage(text, type)`. */
  function Show(st: ItemState, text: string, kind: MessageType): (r: ItemState)
    ensures r.statusMessage == text && r.messageType == kind
    ensures r.isChecking == st.isChecking && r.isClaiming == st.isClaiming
  {
    st.(statusMessage := text, messageType := kind)
  }

  /** The update a successful check asks for: the server's two flags, nothing else. */
  function CheckPatch(data: CheckData): (p: QuestPatch)
    ensures PatchFields(p) == map["isCompleted" := Flag(data.isCompleted), "canWithdraw" := Flag(data.canWithdraw)]
  {
    EmptyPatch.(isCompleted := Some(data.isCompleted), canWithdraw := Some(data.canWithdraw))
  }

  /** The update a successful claim asks for: withdrawal is no longer possible, nothing else. */
  const ClaimPatch: QuestPatch := EmptyPatch.(canWithdraw := Some(false))

  /**
   * `handleCheck`. Without a wallet: no request, no update, an error line.
   * Otherwise `isChecking` is set and the status cleared while the request
   * runs, and cleared again after every outcome; a successful reply with
   * data updates the quest with the server's flags and reports success
   * exactly when the quest is completed; anything else reports an error and
   * updates nothing.
   */
  function HandleCheck(wallet: Option<string>, st: ItemState, reply: Reply<CheckResponse>): (r: ItemRun)
    ensures !HasWallet(wallet) ==>
              r.inFlight == None && r.update == None && r.after == Show(st, ConnectFirst, Error)
    ensures HasWallet(wallet) ==>
              && r.inFlight == Some(st.(isChecking := true, statusMessage := ""))
              && !r.after.isChecking && r.after.isClaiming == st.isClaiming
    ensures HasWallet(wallet) && reply.Returned? && reply.response.success && reply.response.data.Some? ==>
              var data := reply.response.data.value;
              && r.update == Some(CheckPatch(data))
              && r.after.statusMessage == data.message
              && (r.after.messageType == Success <==> data.isCompleted)
              && (r.after.messageType == Info <==> !data.isCompleted)
    ensures HasWallet(wallet) && reply.Returned? && !(reply.response.success && reply.response.data.Some?) ==>
              r.update == None && r.after.messageType == Error &&
              r.after.statusMessage == JsStrings.OrElse(reply.response.error, CheckFailed)
    ensures HasWallet(wallet) && reply.Threw? ==>
              r.update == None && r.after.messageType == Error && r.after.statusMessage == NetworkError
  {
    if !HasWallet(wallet) then ItemRun(None, Show(st, ConnectFirst, Error), None)
    else
      var busy := st.(isChecking := true, statusMessage := "");
      match reply
      case Threw => ItemRun(Some(busy), Show(busy, NetworkError, Error).(isChecking := false), None)
      case Returned(res) =>
        if res.success && res.data.Some? then
          var data := res.data.value;
          var kind := if data.isCompleted then Success else Info;
          ItemRun(Some(busy), Show(busy, data.message, kind).(isChecking := false), Some(CheckPatch(data)))
        else
          ItemRun(Some(busy), Show(busy, JsStrings.OrElse(res.error, CheckFailed), Error).(isChecking := false), None)
  }

  /**
   * `handleWithdraw`, the same shape as the check: a successful reply with
   * data asks only for `canWithdraw := false` and reports success.
   */
  function HandleWithdraw(wallet: Option<string>, st: ItemState, reply: Reply<ClaimResponse>): (r: ItemRun)
    ensures !HasWallet(wallet) ==>
              r.inFlight == None && r.update == None && r.after == Show(st, ConnectFirst, Error)
    ensures HasWallet(wallet) ==>
              && r.inFlight == Some(st.(isClaiming := true, statusMessage := ""))
              && !r.after.isClaiming && r.after.isChecking == st.isChecking
    ensures HasWallet(wallet) && reply.Returned? && reply.response.success && reply.response.data.Some? ==>
              r.update == Some(ClaimPatch) && r.after.messageType == Success &&
              r.after.statusMessage == reply.response.data.value.message
    ensures HasWallet(wallet) && reply.Returned? && !(reply.response.success && reply.response.data.Some?) ==>
              r.update == None && r.after.messageType == Error &&
              r.after.statusMessage == JsStrings.OrElse(reply.response.error, ClaimFailed)
    ensures HasWallet(wallet) && reply.Threw? ==>
              r.update == None && r.after.messageType == Error && r.after.statusMessage == NetworkError
  {
    if !HasWallet(wallet) then ItemRun(None, Show(st, ConnectFirst, Error), None)
    else
      var busy := st.(isClaiming := true, statusMessage := "");
      match reply
      case Threw => ItemRun(Some(busy), Show(busy, NetworkError, Error).(isClaiming := false), None)
      case Returned(res) =>
        if res.success && res.data.Some? then
          ItemRun(Some(busy), Show(busy, res.data.value.message, Success).(isClaiming := false), Some(ClaimPatch))
        else
          ItemRun(Some(busy), Show(busy, JsStrings.OrElse(res.error, ClaimFailed), Error).(isClaiming := false), None)
  }

  /** The list after an item's handler ran: its update, if any, merged under the item's quest id. */
  function AfterItem(qs: seq<Quest>, questId: string, run: ItemRun): (r: seq<Quest>)
    ensures run.update.None? ==> r == qs
  {
    if run.update.Some? then UpdateQuests(qs, questId, run.update.value) else qs
  }

  /** The check button is disabled for a completed quest and while a check runs. */
  predicate CheckDisabled(q: Quest, st: ItemState) {
    q.isCompleted || st.isChecking
  }

  /** The withdraw button is rendered only for a quest whose reward can be withdrawn. */
  predicate WithdrawShown(q: Quest) {
    q.canWithdraw
  }

  /** The withdraw button is disabled while a claim runs. */
  predicate WithdrawDisabled(st: ItemState) {
    st.isClaiming
  }

  /**
   * A successful check sets exactly that quest's two flags to the server's
   * values; every other quest and every other field is unchanged, and the
   * check button is then disabled exactly when the server says completed.
   */
  lemma {:induction false} CheckUpdatesOnlyThatQuest(qs: seq<Quest>, i: int, wallet: Option<string>,
                                                     st: ItemState, data: CheckData, error: Option<string>)
    requires 0 <= i < |qs| && HasWallet(wallet)
    ensures var r := HandleCheck(wallet, st, Returned(CheckResponse(true, Some(data), error)));
            var after := AfterItem(qs, qs[i].id, r);
            && |after| == |qs|
            && after[i] == qs[i].(isCompleted := data.isCompleted, canWithdraw := data.canWithdraw)
            && (forall j :: 0 <= j < |qs| && qs[j].id != qs[i].id ==> after[j] == qs[j])
            && (CheckDisabled(after[i], r.after) <==> data.isCompleted)
  {
  }

  /** A successful claim hides that quest's withdraw button and leaves its completion flag alone. */
  lemma {:induction false} ClaimHidesWithdraw(qs: seq<Quest>, i: int, wallet: Option<string>,
                                              st: ItemState, data: ClaimData, error: Option<string>)
    requires 0 <= i < |qs| && HasWallet(wallet)
    ensures var r := HandleWithdraw(wallet, st, Returned(ClaimResponse(true, Some(data), error)));
            var after := AfterItem(qs, qs[i].id, r);
            && |after| == |qs|
            && after[i] == qs[i].(canWithdraw := false)
            && !WithdrawShown(after[i])
            && after[i].isCompleted == qs[i].isCompleted
            && (forall j :: 0 <= j < |qs| && qs[j].id != qs[i].id ==> after[j] == qs[j])
  {
  }

  /** While a request is in flight its button is disabled. */
  lemma InFlightDisablesButton(q: Quest, wallet: Option<string>, st: ItemState,
                               check: Reply<CheckResponse>, claim: Reply<ClaimResponse>)
    requires HasWallet(wallet)
    ensures CheckDisabled(q, HandleCheck(wallet, st, check).inFlight.value)
    ensures WithdrawDisabled(HandleWithdraw(wallet, st, claim).inFlight.value)
  {
  }

  /** The list component's own state. */
  datatype ListState = ListState(quests: seq<Quest>, isLoading: bool, error: string)

  datatype LoadRun = LoadRun(inFlight: ListState, after: ListState)

  const LoadFailed: string := "Failed to load quests. Please try again."

  /**
   * `loadQuests` with the fetch's outcome: loading with no error while it
   * runs; afterwards not loading, and either the fetched list or the error
   * text with the previous list kept.
   */
  function LoadQuests(st: ListState, fetched: Result<seq<Quest>>): (r: LoadRun)
    ensures r.inFlight == st.(isLoading := true, error := "")
    ensures !r.after.isLoading
    ensures fetched.Ok? ==> r.after.quests == fetched.value && r.after.error == ""
    ensures fetched.Err? ==> r.after.quests == st.quests && r.after.error == LoadFailed
  {
    var busy := st.(isLoading := true, error := "");
    match fetched
    case Ok(qs) => LoadRun(busy, busy.(quests := qs, isLoading := false))
    case Err(_) => LoadRun(busy, busy.(error := LoadFailed, isLoading := false))
  }
}

=== FILE: quest_types.dfy ===
/** Quests and the replies of the quest endpoints (src/types/quest.ts, src/api/quests.ts). */
module QuestTypes {
  import opened Wrappers

  datatype Reward = Reward(amount: int, token: string)

  datatype Quest = Quest(
    id: string,
    projectName: string,
    questName: string,
    description: string,
    reward: Reward,
    isCompleted: bool,
    canWithdraw: bool)

  /** `Partial<LootPangQuest>`: each field present or absent. */
  datatype QuestPatch = QuestPatch(
    id: Option<string>,
    projectName: Option<string>,
    questName: Option<string>,
    description: Option<string>,
    reward: Option<Reward>,
    isCompleted: Option<bool>,
    canWithdraw: Option<bool>)

  const EmptyPatch: QuestPatch := QuestPatch(None, None, None, None, None, None, None)

  /** A quest as a plain JavaScript object: one entry per own property. */
  datatype FieldValue = Text(text: string) | Amount(reward: Reward) | Flag(flag: bool)

  const QuestKeys: set<string> :=
    {"id", "projectName", "questName", "description", "reward", "isCompleted", "canWithdraw"}

  /** The property `key` of a quest. */
  function Property(q: Quest, key: string): FieldValue
    requires key in QuestKeys
  {
    match key
    case "id" => Text(q.id)
    case "projectName" => Text(q.projectName)
    case "questName" => Text(q.questName)
    case "description" => Text(q.description)
    case "reward" => Amount(q.reward)
    case "isCompleted" => Flag(q.isCompleted)
    case _ => Flag(q.canWithdraw)
  }

  /** The property `key` of a partial quest, if it has one. */
  function PatchProperty(p: QuestPatch, key: string): Option<FieldValue>
    requires key in QuestKeys
  {
    match key
    case "id" => if p.id.Some? then Some(Text(p.id.value)) else None
    case "projectName" => if p.projectName.Some? then Some(Text(p.projectName.value)) else None
    case "questName" => if p.questName.Some? then Some(Text(p.questName.value)) else None
    case "description" => if p.description.Some? then Some(Text(p.description.value)) else None
    case "reward" => if p.reward.Some? then Some(Amount(p.reward.value)) else None
    case "isCompleted" => if p.isCompleted.Some? then Some(Flag(p.isCompleted.value)) else None
    case _ => if p.canWithdraw.Some? then Some(Flag(p.canWithdraw.value)) else None
  }

  function Fields(q: Quest): (m: map<string, FieldValue>)
    ensures m.Keys == QuestKeys
  {
    map k | k in QuestKeys :: Property(q, k)
  }

  /** A partial quest as an object: only the fields it has are own properties. */
  function PatchFields(p: QuestPatch): (m: map<string, FieldValue>)
    ensures m.Keys <= QuestKeys
  {
    map k | k in QuestKeys && PatchProperty(p, k).Some? :: PatchProperty(p, k).value
  }

  /** Two quests with the same properties are the same quest. */
  lemma FieldsInjective(a: Quest, b: Quest)
    requires Fields(a) == Fields(b)
    ensures a == b
  {
    forall k | k in QuestKeys
      ensures Property(a, k) == Property(b, k)
    {
      assert Fields(a)[k] == Fields(b)[k];
    }
    assert Property(a, "id") == Property(b, "id");
    assert Property(a, "projectName") == Property(b, "projectName");
    assert Property(a, "questName") == Property(b, "questName");
    assert Property(a, "description") == Property(b, "description");
    assert Property(a, "reward") == Property(b, "reward");
    assert Property(a, "isCompleted") == Property(b, "isCompleted");
    assert Property(a, "canWithdraw") == Property(b, "canWithdraw");
  }

  datatype CheckData = CheckData(
    questId: string,
    isCompleted: bool,
    canWithdraw: bool,
    userBalance: string,
    minRequired: string,
    message: string)

  datatype CheckResponse = CheckResponse(success: bool, data: Option<CheckData>, error: Option<string>)

  datatype ClaimData = ClaimData(questId: string, txHash: string, amount: int, token: string, message: string)

  datatype ClaimResponse = ClaimResponse(success: bool, data: Option<ClaimData>, error: Option<string>)
}

=== FILE: signing.dfy ===
/**
 * `handleSignMessage` of the chat hook: the signing workflow started when
 * the agent asks for an EIP-712 signature. In order it gates on a signer,
 * compares the wallet's chain with the payload's, switches chain when they
 * differ, converts the numeric fields to exact integers, asks the wallet
 * to sign, and emits the signature when the socket is up. Anything thrown
 * along the way ends in an alert and a hidden "Signature was rejected."
 * message.
 */
module Signing {
  import opened Wrappers
  import opened JsValues
  import opened ChatTypes
  import opened ChatSession
  import opened NetworkSwitch

  const NotConnectedAlert: string := "Please connect your wallet first to sign."
  const WrongNetworkAlert: string := "Please switch to Base Sepolia network."
  const FailedPrefix: string := "Signature failed: "
  const RejectedText: string := "Signature was rejected."
  /** What `new BrowserProvider(undefined)` throws when `window.ethereum` is missing. */
  const InvalidProvider: string := "invalid EIP-1193 provider"

  /** The wallet's answers during one attempt. */
  datatype SignEnv = SignEnv(
    connect: WalletProbe,       // what `connectWallet` finds when no signer is held
    network: Result<int>,       // the provider's current chain id
    switchEnv: SwitchEnv,       // whether `window.ethereum` exists, and the replies to the chain switch
    reacquire: Result<Signer>,  // the fresh signer requested after a switch
    signature: Result<string>)  // the reply to `signTypedData`

  /** Where an attempt ended. */
  datatype SignOutcome =
    | WalletMissing
    | WrongNetwork
    | Failed(reason: string)
    | SignedOffline(signature: string)
    | Submitted(signature: string)

  /**
   * The session after the attempt, how it ended, the chain requests sent to
   * the wallet, and the typed data handed to `signTypedData` if it got that far.
   */
  datatype SignRun = SignRun(
    session: Session,
    outcome: SignOutcome,
    walletRequests: seq<WalletRequest>,
    signed: Option<TypedData>)

  /**
   * The chain the payload asks for: `BigInt` of its domain's `chainId`,
   * failing on a non-numeral, or 84532 when that field is falsy.
   */
  function RequiredChain(d: TypedData): (r: Result<int>)
    ensures !Truthy(Lookup(d.domain, "chainId")) ==> r == Ok(BaseSepoliaChainId)
    ensures Truthy(Lookup(d.domain, "chainId")) ==> r == ToBigInt(Lookup(d.domain, "chainId"))
  {
    ToBigIntOr(Lookup(d.domain, "chainId"), BaseSepoliaChainId)
  }

  /** `BigInt(field || 0)` for one field of a record. */
  function Exact(m: map<string, JsValue>, key: string): Result<int> {
    ToBigIntOr(Lookup(m, key), 0)
  }

  /**
   * The typed data actually signed: the domain's `chainId` and the value's
   * `amount`, `nonce` and `deadline` replaced by exact integers (a falsy
   * field becomes 0, the chain id included); every other entry is kept.
   * It fails, with the first conversion error, exactly when one of the four
   * fields is a string that is not a decimal numeral.
   */
  function Normalise(d: TypedData): (r: Result<TypedData>)
    ensures r.Ok? <==>
              Exact(d.domain, "chainId").Ok? && Exact(d.value, "amount").Ok? &&
              Exact(d.value, "nonce").Ok? && Exact(d.value, "deadline").Ok?
    ensures r.Ok? ==>
              && r.value.types == d.types
              && r.value.domain.Keys == d.domain.Keys + {"chainId"}
              && r.value.domain["chainId"] == Big(Exact(d.domain, "chainId").value)
              && (forall k :: k in d.domain && k != "chainId" ==> r.value.domain[k] == d.domain[k])
              && r.value.value.Keys == d.value.Keys + {"amount", "nonce", "deadline"}
              && r.value.value["amount"] == Big(Exact(d.value, "amount").value)
              && r.value.value["nonce"] == Big(Exact(d.value, "nonce").value)
              && r.value.value["deadline"] == Big(Exact(d.value, "deadline").value)
              && (forall k :: k in d.value && k !in {"amount", "nonce", "deadline"} ==>
                                r.value.value[k] == d.value[k])
  {
    var chainId :- Exact(d.domain, "chainId");
    var amount :- Exact(d.value, "amount");
    var nonce :- Exact(d.value, "nonce");
    var deadline :- Exact(d.value, "deadline");
    Ok(TypedData(
      d.domain["chainId" := Big(chainId)],
      d.types,
      d.value["amount" := Big(amount)]["nonce" := Big(nonce)]["deadline" := Big(deadline)]))
  }

  /** The `message` emitted with a signature: the signature as text, and the payload as received. */
  function SignatureMessage(s: Session, d: TypedData, signature: string): Emit {
    Message(signature, s.roomId, s.walletAddress, Some(signature),
            Some(SignatureData(d.domain, d.types, d.value,
                               Lookup(d.value, "amount"), Lookup(d.value, "nonce"), Lookup(d.value, "deadline"))))
  }

  /** The catch block: alert the error, then send the rejection without showing it in the chat. */
  function Fail(s: Session, reason: string, requests: seq<WalletRequest>, signed: Option<TypedData>): (r: SignRun)
    ensures r.outcome == Failed(reason) && r.walletRequests == requests && r.signed == signed
    ensures r.session.alerts == s.alerts + [FailedPrefix + reason]
    ensures r.session.messages == s.messages
    ensures r.session.outbox ==
              s.outbox + (if s.socketConnected then [Message(RejectedText, s.roomId, s.walletAddress, None, None)] else [])
    ensures r.session.(alerts := s.alerts, outbox := s.outbox) == s
  {
    var alerted := s.(alerts := s.alerts + [FailedPrefix + reason]);
    SignRun(SendMessage(alerted, RejectedText, false, ""), Failed(reason), requests, signed)
  }

  /** The steps after the chain check: normalise, sign, and emit if the socket is up. */
  function SignOnChain(s: Session, d: TypedData, env: SignEnv, requests: seq<WalletRequest>): SignRun {
    match Normalise(d)
    case Err(m) => Fail(s, m, requests, None)
    case Ok(nd) =>
      match env.signature
      case Err(m) => Fail(s, m, requests, Some(nd))
      case Ok(sig) =>
        if !s.socketConnected then SignRun(s, SignedOffline(sig), requests, Some(nd))
        else SignRun(s.(outbox := s.outbox + [SignatureMessage(s, d, sig)]), Submitted(sig), requests, Some(nd))
  }

  /** The workflow for one signing request `d`. */
  function HandleSign(s: Session, d: TypedData, env: SignEnv, freshId: string): (r: SignRun)
    // no signer: connect instead; no chain check, no signature, no emit
    ensures s.signer.None? ==>
              && r.outcome == WalletMissing && r.walletRequests == [] && r.signed == None
              && r.session == ConnectWallet(s.(alerts := s.alerts + [NotConnectedAlert]), env.connect, freshId)
              && r.session.outbox == s.outbox
    // with a signer the timeline, room and address are never touched
    ensures s.signer.Some? ==>
              r.session.messages == s.messages && r.session.roomId == s.roomId &&
              r.session.walletAddress == s.walletAddress && r.session.socketConnected == s.socketConnected
    // no provider to build, the wallet's chain cannot be read, or the payload's chain id is
    // no numeral: the catch block, before any chain request
    ensures s.signer.Some? && !env.switchEnv.hasProvider ==>
              r.outcome == Failed(InvalidProvider) && r.walletRequests == []
    ensures s.signer.Some? && env.switchEnv.hasProvider && env.network.Err? ==>
              r.outcome == Failed(env.network.message) && r.walletRequests == []
    ensures s.signer.Some? && env.switchEnv.hasProvider && env.network.Ok? && RequiredChain(d).Err? ==>
              r.outcome == Failed(RequiredChain(d).message) && r.walletRequests == []
    // the wallet is already on the required chain: no switch request
    ensures s.signer.Some? && env.network.Ok? && RequiredChain(d) == Ok(env.network.value) ==>
              r.walletRequests == []
    // a chain mismatch sends the switch requests; a refused switch stops before signing
    ensures && s.signer.Some? && env.switchEnv.hasProvider && env.network.Ok? && RequiredChain(d).Ok?
            && RequiredChain(d).value != env.network.value ==>
              && r.walletRequests == SwitchToBase(env.switchEnv).requests
              && (!SwitchToBase(env.switchEnv).ok ==>
                    r.outcome == WrongNetwork && r.signed == None && r.session.outbox == s.outbox &&
                    r.session.alerts == s.alerts + [WrongNetworkAlert])
    // on the required chain, or switched there, a signature is submitted when the
    // socket is up and kept back when it is down
    ensures && s.signer.Some? && env.switchEnv.hasProvider && env.network.Ok? && RequiredChain(d).Ok?
            && (RequiredChain(d).value == env.network.value || (SwitchToBase(env.switchEnv).ok && env.reacquire.Ok?))
            && Normalise(d).Ok? && env.signature.Ok? ==>
              r.outcome == (if s.socketConnected then Submitted(env.signature.value) else SignedOffline(env.signature.value))
    // a payload that does not convert, a refused signature or a failed signer
    // re-acquisition after the switch: the catch block
    ensures && s.signer.Some? && env.switchEnv.hasProvider && env.network.Ok? && RequiredChain(d).Ok?
            && (RequiredChain(d).value == env.network.value || (SwitchToBase(env.switchEnv).ok && env.reacquire.Ok?)) ==>
              && (Normalise(d).Err? ==> r.outcome == Failed(Normalise(d).message))
              && (Normalise(d).Ok? && env.signature.Err? ==> r.outcome == Failed(env.signature.message))
    ensures && s.signer.Some? && env.switchEnv.hasProvider && env.network.Ok? && RequiredChain(d).Ok?
            && RequiredChain(d).value != env.network.value && SwitchToBase(env.switchEnv).ok && env.reacquire.Err? ==>
              r.outcome == Failed(env.reacquire.message)
    // a signature that was obtained is never followed by an alert, kept back silently when the socket is down
    ensures r.outcome.Submitted? || r.outcome.SignedOffline? ==> r.session.alerts == s.alerts
    // the signer is replaced only by the fresh one fetched after a successful switch, never cleared
    ensures s.signer.Some? ==>
              r.session.signer ==
                (if && env.switchEnv.hasProvider && env.network.Ok? && RequiredChain(d).Ok?
                    && RequiredChain(d).value != env.network.value && SwitchToBase(env.switchEnv).ok && env.reacquire.Ok?
                 then Some(env.reacquire.value) else s.signer)
    // with a signer and the socket down nothing is ever emitted
    ensures s.signer.Some? && !s.socketConnected ==> r.session.outbox == s.outbox
    // the wallet is only ever shown the normalised payload
    ensures r.signed.Some? ==> Normalise(d) == Ok(r.signed.value)
    ensures r.outcome.Submitted? ==>
              && s.socketConnected && env.signature == Ok(r.outcome.signature) && r.signed.Some?
              && r.session.outbox == s.outbox + [SignatureMessage(s, d, r.outcome.signature)]
    ensures r.outcome.SignedOffline? ==>
              !s.socketConnected && env.signature == Ok(r.outcome.signature) && r.session.outbox == s.outbox
    ensures r.outcome.Failed? ==>
              && r.session.alerts == s.alerts + [FailedPrefix + r.outcome.reason]
              && r.session.outbox == s.outbox +
                   (if s.socketConnected then [Message(RejectedText, s.roomId, s.walletAddress, None, None)] else [])
  {
    if s.signer.None? then
      SignRun(ConnectWallet(s.(alerts := s.alerts + [NotConnectedAlert]), env.connect, freshId), WalletMissing, [], None)
    else if !env.switchEnv.hasProvider then Fail(s, InvalidProvider, [], None)
    else match env.network
      case Err(m) => Fail(s, m, [], None)
      case Ok(current) =>
        match RequiredChain(d)
        case Err(m) => Fail(s, m, [], None)
        case Ok(required) =>
          if current == required then SignOnChain(s, d, env, [])
          else
            var sw := SwitchToBase(env.switchEnv);
            if !sw.ok then SignRun(s.(alerts := s.alerts + [WrongNetworkAlert]), WrongNetwork, sw.requests, None)
            else match env.reacquire
              case Err(m) => Fail(s, m, sw.requests, None)
              case Ok(signer) => SignOnChain(s.(signer := Some(signer)), d, env, sw.requests)
  }

  /**
   * A missing chain id means 84532 for the chain check but 0 in the
   * domain that is signed: the two defaults differ.
   */
  lemma MissingChainIdDefaults(d: TypedData)
    requires "chainId" !in d.domain
    ensures RequiredChain(d) == Ok(BaseSepoliaChainId)
    ensures Normalise(d).Ok? ==> Normalise(d).value.domain["chainId"] == Big(0)
  {
  }

  /** The string "0" is truthy, so it asks for chain 0 rather than falling back to 84532. */
  lemma StringZeroChainIsNotDefaulted(d: TypedData)
    requires Lookup(d.domain, "chainId") == Str("0")
    ensures RequiredChain(d) == Ok(0)
  {
    assert Numerals.IsDigitString("0", 10);
    assert "0"[..0] == "";
  }

  /** Decimal numerals in amount, nonce and deadline are signed as exactly the numbers they denote. */
  lemma {:induction false} DecimalFieldsAreExact(d: TypedData, amount: nat, nonce: nat, deadline: nat)
    requires Exact(d.domain, "chainId").Ok?
    requires Lookup(d.value, "amount") == Str(Numerals.Show(amount, 10))
    requires Lookup(d.value, "nonce") == Str(Numerals.Show(nonce, 10))
    requires Lookup(d.value, "deadline") == Str(Numerals.Show(deadline, 10))
    ensures Normalise(d).Ok?
    ensures Normalise(d).value.value["amount"] == Big(amount)
    ensures Normalise(d).value.value["nonce"] == Big(nonce)
    ensures Normalise(d).value.value["deadline"] == Big(deadline)
  {
    DecimalRoundTrip(amount, 0);
    DecimalRoundTrip(nonce, 0);
    DecimalRoundTrip(deadline, 0);
  }

  /** The wei amount "1000000000000000000" and the nonce "0" are signed as 10^18 and 0. */
  lemma {:induction false} OneEtherPayload(d: TypedData)
    requires Exact(d.domain, "chainId").Ok? && Exact(d.value, "deadline").Ok?
    requires Lookup(d.value, "amount") == Str("1000000000000000000")
    requires Lookup(d.value, "nonce") == Str("0")
    ensures Normalise(d).Ok?
    ensures Normalise(d).value.value["amount"] == Big(Numerals.Pow(10, 18))
    ensures Normalise(d).value.value["nonce"] == Big(0)
  {
    OneEtherInWei();
    assert Numerals.IsDigitString("0", 10);
    assert "0"[..0] == "";
  }

  /**
   * The chain requests do not depend on which chain the payload asked for:
   * whenever a switch is needed the wallet is sent to 84532.
   */
  lemma {:induction false} SwitchIgnoresRequestedChain(s: Session, d1: TypedData, d2: TypedData, env: SignEnv, id: string)
    requires s.signer.Some? && env.network.Ok?
    requires RequiredChain(d1).Ok? && RequiredChain(d1).value != env.network.value
    requires RequiredChain(d2).Ok? && RequiredChain(d2).value != env.network.value
    ensures HandleSign(s, d1, env, id).walletRequests == HandleSign(s, d2, env, id).walletRequests
    ensures HandleSign(s, d1, env, id).walletRequests == SwitchToBase(env.switchEnv).requests
  {
  }

  /**
   * After a switch the wallet reports as successful, the chain is not read
   * again: the attempt signs and submits even when the payload asked for a
   * chain other than 84532.
   */
  lemma {:induction false} NoRecheckAfterSwitch(s: Session, d: TypedData, env: SignEnv, id: string, signer: Signer, sig: string)
    requires s.signer.Some? && s.socketConnected && env.network.Ok?
    requires RequiredChain(d).Ok? && RequiredChain(d).value != env.network.value
    requires RequiredChain(d).value != BaseSepoliaChainId
    requires SwitchToBase(env.switchEnv).ok
    requires env.reacquire == Ok(signer) && env.signature == Ok(sig) && Normalise(d).Ok?
    ensures HandleSign(s, d, env, id).outcome == Submitted(sig)
    ensures HandleSign(s, d, env, id).session.signer == Some(signer)
  {
  }

  /**
   * The common mismatch: the payload asks for Base Sepolia, the wallet is on
   * another chain, the switch and the signature succeed; the signature is
   * emitted once, after exactly one switch request.
   */
  lemma {:induction false} SwitchThenSubmit(s: Session, d: TypedData, env: SignEnv, id: string, signer: Signer, sig: string)
    requires s.signer.Some? && s.socketConnected
    requires RequiredChain(d) == Ok(BaseSepoliaChainId)
    requires env.network.Ok? && env.network.value != BaseSepoliaChainId
    requires SwitchToBase(env.switchEnv).ok
    requires env.reacquire == Ok(signer) && env.signature == Ok(sig) && Normalise(d).Ok?
    ensures var r := HandleSign(s, d, env, id);
            && r.outcome == Submitted(sig)
            && r.session.outbox == s.outbox + [SignatureMessage(s, d, sig)]
            && r.walletRequests == SwitchToBase(env.switchEnv).requests
            && r.walletRequests[0] == SwitchChain(BaseSepoliaHex)
  {
  }

  /**
   * A refused signature ends in the catch block, with its alert and the
   * hidden rejection message, unless the attempt already stopped at a
   * refused chain switch; either way the socket state, the address and the
   * timeline are as they were.
   */
  lemma RejectionKeepsSession(s: Session, d: TypedData, env: SignEnv, id: string)
    requires s.signer.Some? && env.signature.Err?
    ensures var r := HandleSign(s, d, env, id);
            r.outcome.Failed? || r.outcome.WrongNetwork?
    ensures var r := HandleSign(s, d, env, id);
            r.outcome.WrongNetwork? ==>
              && env.switchEnv.hasProvider && env.network.Ok? && RequiredChain(d).Ok?
              && RequiredChain(d).value != env.network.value && !SwitchToBase(env.switchEnv).ok
    ensures var r := HandleSign(s, d, env, id);
            r.outcome.Failed? ==>
              && r.session.alerts == s.alerts + [FailedPrefix + r.outcome.reason]
              && r.session.outbox == s.outbox +
                   (if s.socketConnected then [Message(RejectedText, s.roomId, s.walletAddress, None, None)] else [])
    ensures var r := HandleSign(s, d, env, id);
            r.session.socketConnected == s.socketConnected && r.session.walletAddress == s.walletAddress &&
            r.session.messages == s.messages
  {
  }
}

=== FILE: wallet_store.dfy ===
/** The global wallet display store (src/store/walletStore.ts): an address and a connected flag. */
module WalletStore {
  import opened Wrappers

  /** `address` is `None` for `null`; a `Some` may still hold `undefined`'s stand-in, see `Connect`. */
  datatype WalletState = WalletState(address: Option<string>, isConnected: bool)

  /** The store's invariant: connected exactly when an address is held. */
  predicate Valid(st: WalletState) {
    st.isConnected <==> st.address.Some?
  }

  const Initial: WalletState := WalletState(None, false)

  /**
   * `connectWallet(address)`: stores the argument, whatever was there, and
   * marks the store connected. `None` models a call with `undefined`.
   */
  function Connect(st: WalletState, address: Option<string>): (r: WalletState)
    ensures r.address == address && r.isConnected
    ensures address.Some? ==> Valid(r)
  {
    WalletState(address, true)
  }

  /** `disconnectWallet()`: no address, not connected. */
  function Disconnect(st: WalletState): (r: WalletState)
    ensures r == Initial && Valid(r)
  {
    WalletState(None, false)
  }

  datatype StoreOp = ConnectOp(address: string) | DisconnectOp

  function Apply(st: WalletState, op: StoreOp): WalletState {
    match op
    case ConnectOp(a) => Connect(st, Some(a))
    case DisconnectOp => Disconnect(st)
  }

  function Run(st: WalletState, ops: seq<StoreOp>): WalletState
    decreases |ops|
  {
    if |ops| == 0 then st else Run(Apply(st, ops[0]), ops[1..])
  }

  lemma InitialValid()
    ensures Valid(Initial) && Initial.address == None && !Initial.isConnected
  {
  }

  /** Disconnecting twice is disconnecting once. */
  lemma DisconnectIdempotent(st: WalletState)
    ensures Disconnect(Disconnect(st)) == Disconnect(st)
  {
  }

  /** Connecting and then disconnecting returns to the initial state, from any state. */
  lemma ConnectThenDisconnect(st: WalletState, a: Option<string>)
    ensures Disconnect(Connect(st, a)) == Initial
  {
  }

  /** The last connect wins: the earlier address is overwritten. */
  lemma ConnectOverwrites(st: WalletState, a: string, b: string)
    ensures Connect(Connect(st, Some(a)), Some(b)) == Connect(st, Some(b))
  {
  }

  /** Any sequence of operations with real addresses keeps the invariant. */
  lemma {:induction false} RunKeepsValid(st: WalletState, ops: seq<StoreOp>)
    requires Valid(st)
    ensures Valid(Run(st, ops))
    decreases |ops|
  {
    if |ops| > 0 {
      RunKeepsValid(Apply(st, ops[0]), ops[1..]);
    }
  }

  /** The state after a sequence is decided by its last operation alone. */
  lemma {:induction false} RunLastWins(st: WalletState, ops: seq<StoreOp>)
    requires |ops| > 0
    ensures Run(st, ops) == Apply(st, ops[|ops| - 1])
    decreases |ops|
  {
    if |ops| > 1 {
      RunLastWins(Apply(st, ops[0]), ops[1..]);
      assert ops[1..][|ops[1..]| - 1] == ops[|ops| - 1];
    }
  }

  /** A connect with `undefined` breaks the invariant: connected with no address. */
  lemma UndefinedAddressBreaksValid(st: WalletState)
    ensures !Valid(Connect(st, None))
  {
  }
}

=== FILE: wrappers.dfy ===
/** Failure-compatible wrappers shared by every module of the model. */
module Wrappers {

  /** A value that may be absent: JavaScript's `undefined`/`null` for an optional field. */
  datatype Option<+T> = None | Some(value: T) {

    /** The carried value, or `default` when absent. */
    function GetOr(default: T): T {
      match this
      case Some(v) => v
      case None => default
    }
  }

  /** The outcome of an operation that can throw: a value, or the thrown error's message. */
  datatype Result<+T> = Ok(value: T) | Err(message: string) {

    predicate IsFailure() {
      Err?
    }

    function PropagateFailure<U>(): Result<U>
      requires Err?
    {
      Err(message)
    }

    function Extract(): T
      requires Ok?
    {
      value
    }
  }
}
